=== FILE: README.md ===
# Guardian and file monitor, modelled in Dafny

This project models two small Rust programs from one repository.

**The observer "guardian"** waits for a USB key. It initialises the key: the key must connect, report itself as a USB device and carry the configured key id. It then authenticates the key: it asks the key for a 1024-byte read, hashes whatever comes back with SHA-256, and the lower-case hex digest is compared with the configured hash. After that it loops, receiving command strings from the key and dispatching each one to a handler. The handler recognises six commands:
- five run a platform script (`cmd /C <dir>\<code>.bat` on Windows, `bash -c <dir>/<code>.sh` elsewhere);
- one lists processes (`tasklist` or `ps aux`).

When waiting for a command fails, the guardian disconnects the key and waits for the next device.

**The file monitor** classifies watcher events into file events. It keeps the last 100 events with their timestamps, and a count per event kind. It supports a displayed substitute for the monitored path and a table of path substitutions, and it can be paused. A line-oriented command loop drives it.

Layout, one module per source file:
- `results.dfy`: the `Option` and `Result` wrappers.
- `text.dfy`: substring occurrence.
- `errors.dfy`: the error values and their messages.
- `effects.dfy`: bytes, durations, process invocations, and the record of calls made to devices and processes.
- `device_operator.dfy`: the device interface as data.
- `usb_key.dfy`: the key wrapper.
- `lower_hex.dfy`: the `{:x}` digest rendering.
- `security.dfy`: the authentication gate.
- `handler.dfy`: command dispatch.
- `guardian.dfy`: the entry point's loop as a state machine.
- `file_monitor.dfy`: the monitor's state and operations.
- `monitor_repl.dfy`: the interactive loop.

The outside world is passed in as parameters:
- SHA-256 is a function `Bytes -> Digest`.
- Process spawning is a function from an invocation to its outcome.
- A device is a record of its answers. Command waits are indexed by how many waits came before, so a device can answer a different command each time.
- The current directory and the watcher's watch/unwatch calls are parameters of `UpdatePath`. The interactive loop takes one such environment per line of text, so the same call can answer differently later in a session.
- The file system, for the script existence check, is the set of paths that exist.

Operations return the calls they make alongside their result. This lets the contracts state what is called, and in which order.

## Model

| member | source | states |
|---|---|---|
| Handler.Route | observer/src/handler.rs:13-24 | a command has an action exactly when it is one of the six recognised strings; only `CHECK_STATUS` lists processes; every other action runs one of the five script codes |
| Handler.RouteIsInvertible | observer/src/handler.rs:14-21 | the routing table is invertible: a command maps to an action exactly when it is that action's command string |
| Handler.RouteInjective | observer/src/handler.rs:14-21 | two recognised commands that route to the same action are the same command |
| Handler.ScriptInvocation | observer/src/handler.rs:26-52 | on Windows, `cmd` with `/C` and `<dir>\<code>.bat` and the no-window creation flag 0x08000000; elsewhere, `bash` with `-c` and `<dir>/<code>.sh` and no flags |
| Handler.ScriptPathInjective | observer/src/handler.rs:27-37 | distinct script codes run distinct script files |
| Handler.RunScriptFor | observer/src/handler.rs:26-65 | exactly one spawn of the script's invocation; success iff the process ran and exited successfully; on success the result is its standard output; a spawn failure propagates; a failing exit gives an error whose message names the script and carries its standard error |
| Handler.CheckStatusWith | observer/src/handler.rs:67-88 | exactly one spawn of the process-listing invocation; success iff it exited successfully, yielding standard output; a failing exit gives an error whose message carries standard error |
| Handler.HandleCommand | observer/src/handler.rs:13-24 | an unrecognised command fails with `UnknownCommand` and spawns nothing; a recognised one spawns exactly its action's process; it succeeds iff that process exits successfully and then yields its standard output |
| Handler.IsScriptExists | observer/src/handler.rs:90-97 | the existence check looks at exactly the path that running the script would execute: it is true iff that path is among the existing files |
| Handler.StatusInvocation | observer/src/handler.rs:67-76 | the status check runs `tasklist` with no arguments on Windows and `ps aux` elsewhere, with no creation flags |
| Errors.ScriptFailureMessage | observer/src/handler.rs:59-63 | the script-failure message has the script name right after its fixed prefix and contains the standard error |
| UsbKeys.Initialize | observer/src/connector/usb_key.rs:17-27 | succeeds iff the device connects, reports a descriptor of type USB and that descriptor's id is the key id; connect comes first and get_info is called only after a successful connect; each failure has its own error (the device's own, `Not a USB device`, `Unexpected USB key`); it never disconnects |
| UsbKeys.ReadData | observer/src/connector/usb_key.rs:29-31 | one read of the requested size, answered by the wrapped device |
| UsbKeys.WriteData | observer/src/connector/usb_key.rs:33-35 | one write of exactly the given bytes, answered by the wrapped device |
| UsbKeys.WaitForKeyCommand | observer/src/connector/usb_key.rs:37-39 | one command wait with the given timeout, answered by the wrapped device |
| UsbKeys.KeyForwardsToDevice | observer/src/connector/usb_key.rs:42-64 | through the device interface, a key answers every operation exactly as the device it wraps |
| LowerHex.Encode | observer/src/connector/security.rs:24 | the rendering has two characters per byte, all of them lower-case hex digits |
| LowerHex.DecodeEncode | observer/src/connector/security.rs:24 | decoding the rendering of any bytes gives those bytes back |
| LowerHex.EncodeDecode | observer/src/connector/security.rs:24 | a text that decodes to some bytes is the rendering of those bytes |
| LowerHex.EncodingIff | observer/src/connector/security.rs:24 | a text is the rendering of some bytes exactly when it decodes to them |
| LowerHex.EncodeInjective | observer/src/connector/security.rs:24 | distinct byte strings have distinct renderings |
| Security.HashData | observer/src/connector/security.rs:21-25 | the digest text is 64 lower-case hex characters that decode to the SHA-256 digest of the data |
| Security.VerifyKey | observer/src/connector/security.rs:14-19 | reads exactly 1024 bytes once; a read error propagates; otherwise the answer is true iff the expected text decodes to the digest of what was read |
| Security.AuthenticateKey | observer/src/connector/security.rs:27-33 | succeeds iff verification answers true; a mismatch fails with `Key authentication failed`; a read error propagates |
| Security.AuthenticationIff | observer/src/connector/security.rs:14-33 | authentication succeeds exactly when the key's data can be read and its hex digest equals the expected text |
| Security.NonLowerHexNeverMatches | observer/src/connector/security.rs:18 | an expected hash with any character outside `0-9a-f`, upper-case hex included, rejects every key |
| Security.WrongLengthNeverMatches | observer/src/connector/security.rs:18 | an expected hash whose length is not 64 rejects every key |
| Guardian.Step | observer/src/bin/guardian.rs:83-125 | one transition of the loop: only a device wait counts a round; the command loop is entered only from a successful authentication, starting at zero commands, and then keeps its key; only the command loop dispatches; after an exit nothing happens |
| Guardian.Run | observer/src/bin/guardian.rs:83-125 | running `n` steps makes at most `n` device waits and never undoes one |
| Guardian.DeviceWaitErrorExits | observer/src/bin/guardian.rs:85 | an error while waiting for a device ends the entry point with that error |
| Guardian.ExitedIsFinal | observer/src/bin/guardian.rs:74-126 | once the entry point has returned, nothing further happens |
| Guardian.NonKeyIgnored | observer/src/bin/guardian.rs:87-124 | a device that is not a USB key is ignored: no call is made to it and the loop waits again |
| Guardian.InitFailureSkipsSession | observer/src/bin/guardian.rs:90-93 | a failed initialisation goes back to waiting; nothing is read from the key, it is not authenticated, no command is awaited and it is not disconnected |
| Guardian.AuthFailureSkipsCommands | observer/src/bin/guardian.rs:96-99 | a failed authentication goes back to waiting without awaiting or dispatching a command |
| Guardian.HandlerErrorKeepsSession | observer/src/bin/guardian.rs:102-110 | whatever the handler answers, the session goes on waiting for the next command |
| Guardian.CommandWaitErrorDisconnectsOnce | observer/src/bin/guardian.rs:111-121 | a failed command wait leads back to waiting for a device with exactly one disconnect in between, whether or not the disconnect succeeds |
| Guardian.RunInvariant | observer/src/bin/guardian.rs:83-125 | on every run from the start, each command wait, dispatch, script or status process and disconnect comes after a successful authentication with no device wait in between, and the state's key is one that passed both checks |
| Guardian.DispatchOnlyWithAcceptedKey | observer/src/bin/guardian.rs:94-113 | a command is dispatched only with a key that passed initialisation and authentication |
| Guardian.CommandIsDispatched | observer/src/bin/guardian.rs:102-110 | in the command loop, a command the key sends is handed to the handler, and the dispatch event carries the handler's result; the loop then waits for the next command |
| Guardian.DispatchReachable | observer/src/bin/guardian.rs:83-110 | when the first device found is the expected key and it authenticates, four steps from the start reach the command loop after one device wait, and the key's first command is then dispatched |
| Guardian.PlaceholderKeyRejected | observer/src/bin/guardian.rs:31-61 | the placeholder key reports `placeholder_id` rather than its own id `placeholder_key_id`, so initialisation fails with `Unexpected USB key` |
| Guardian.PlaceholderNeverAuthenticates | observer/src/bin/guardian.rs:19-126 | with the placeholder device directory and any expected hash, the loop never reads key data, never authenticates and never awaits or dispatches a command, however long it runs |
| Guardian.ScriptDirectory | observer/src/bin/guardian.rs:11-17 | the script directory is `./response` joined with the platform's directory: `./response\win` on Windows, `./response/nix` elsewhere |
| Guardian.Configured | observer/src/bin/guardian.rs:78-81 | the entry point's setup: the expected hash is the literal `your_expected_key_hash_here`, the handler's script directory is `./response\win` on Windows and `./response/nix` elsewhere, and the platform, device directory and environment are the ones given |
| Guardian.ConfiguredLockScreen | observer/src/bin/guardian.rs:14-17 | as configured on Unix, for every process outcome, `LOCK_SCREEN` makes exactly one spawn, of `bash -c ./response/nix/sl.sh`; it succeeds iff the script exits cleanly, and then returns its output |
| Guardian.ConfiguredLockScreenWindows | observer/src/bin/guardian.rs:14-17 | as configured on Windows, for every process outcome, `LOCK_SCREEN` makes exactly one spawn, of `cmd /C ./response\win\sl.bat` with no console window; it succeeds iff the script exits cleanly, and then returns its output |
| Guardian.ConfiguredHashRejectsEveryKey | observer/src/bin/guardian.rs:12 | the configured expected hash is not lower-case hex, so authentication fails for every key |
| FileMonitor.MapEvent | file-monitor/src/lib.rs:90-106 | a close access is `Closed`, any other access is `Opened`; modify, remove and create map to their events; an unspecified event with exactly two paths is a rename to the second path; everything else is dropped (each one an if-and-only-if) |
| FileMonitor.New | file-monitor/src/lib.rs:31-41 | a new monitor has the given path as its current path, with no substitute, no watcher installed, empty history and statistics, no substitutions, and is not paused |
| FileMonitor.UpdateHistory | file-monitor/src/lib.rs:162-168 | the entry is appended and the oldest one is dropped once there would be more than 100, so a history within capacity stays within capacity |
| FileMonitor.UpdateHistoryWindow | file-monitor/src/lib.rs:162-168 | appending to the last 100 entries of a sequence gives the last 100 entries of the longer sequence |
| FileMonitor.UpdateStats | file-monitor/src/lib.rs:170-173 | the event's count, zero when missing, grows by one and every other count is unchanged |
| FileMonitor.HandleEvent | file-monitor/src/lib.rs:108-160 | one history entry and one count are added and nothing else changes; the log message names the displayed path and its substitution |
| FileMonitor.OnWatchEvent | file-monitor/src/lib.rs:56-62 | while paused, or for an event that maps to nothing, the monitor is unchanged; otherwise the mapped event is handled |
| FileMonitor.Replay | file-monitor/src/lib.rs:56-62 | the monitoring loop over any sequence of watcher events changes only the history and the statistics, and keeps a history within capacity within capacity |
| FileMonitor.PausedReplayChangesNothing | file-monitor/src/lib.rs:56-62 | while paused, no sequence of watcher events changes anything |
| FileMonitor.ReplayHistory | file-monitor/src/lib.rs:56-168 | while not paused, the history is the last 100 of all entries recorded so far |
| FileMonitor.ReplayCounts | file-monitor/src/lib.rs:56-173 | while not paused, each count grows by the number of recorded events of its kind |
| FileMonitor.ReplayRecords | file-monitor/src/lib.rs:56-173 | while not paused, the history is the last 100 of all recorded entries and each count grows by the number of recorded events of its kind |
| FileMonitor.Join | file-monitor/src/lib.rs:178 | the base is kept as a prefix and the relative path as a suffix, with a `/` inserted between them exactly when the base is non-empty and does not end in `/`; joining onto an absolute base gives an absolute path |
| FileMonitor.Resolve | file-monitor/src/lib.rs:176-181 | an absolute path is kept; a relative one becomes the current directory, then a `/` exactly when the directory is non-empty and does not end in `/`, then the path; failing to get the current directory is an error |
| FileMonitor.UpdatePath | file-monitor/src/lib.rs:175-198 | succeeds iff the path resolves and, with a watcher installed, both the unwatch of the old path and the watch of the new one succeed. Only the current path and the watched paths ever change. On success the resolved path is current, and the watcher has traded the old path for it. On failure the current path stays; the monitor is untouched unless the unwatch succeeded and the watch failed, which leaves the old path unwatched |
| FileMonitor.UpdatePathWatchesCurrent | file-monitor/src/lib.rs:190-195 | if the watcher watched the current path before the update, it still does afterwards, except exactly when the unwatch succeeded and the watch failed |
| FileMonitor.SubstitutePath | file-monitor/src/lib.rs:200-216 | never fails; sets the displayed path only when the old path is the current path, and otherwise changes nothing |
| FileMonitor.SubstitutionShownInMessages | file-monitor/src/lib.rs:108-216 | after substituting the current path, every event's log line shows the substitute right after its head; substituting any other path changes no log line |
| FileMonitor.Pause | file-monitor/src/lib.rs:218-223 | sets the paused flag and changes nothing else |
| FileMonitor.Resume | file-monitor/src/lib.rs:225-230 | clears the paused flag and changes nothing else |
| FileMonitor.PauseGatesEvents | file-monitor/src/lib.rs:218-230 | after a pause every watcher event is ignored; resuming a paused monitor restores it apart from the flag |
| FileMonitor.GetSubstitutedPath | file-monitor/src/lib.rs:274-280 | a path with a registered substitution looks up to it, and any other path to itself; how adding and removing change lookups is stated by the next three rows |
| FileMonitor.AddPathSubstitution | file-monitor/src/lib.rs:240-256 | after adding, the original path looks up to the substitute, every other lookup is unchanged, and nothing outside the table changes |
| FileMonitor.RemovePathSubstitution | file-monitor/src/lib.rs:258-272 | never fails; after removing, the original path looks up to itself, every other lookup is unchanged, and nothing outside the table changes |
| FileMonitor.AddThenRemoveRestoresLookups | file-monitor/src/lib.rs:240-280 | adding a fresh substitution and then removing it restores every lookup |
| MonitorRepl.WordLength | file-monitor/src/main.rs:72 | a word ends at the first whitespace character |
| MonitorRepl.Words | file-monitor/src/main.rs:72 | splitting yields only non-empty words free of whitespace |
| MonitorRepl.WordsSkipWhitespace | file-monitor/src/main.rs:54-72 | leading whitespace does not change the words of a line |
| MonitorRepl.WordsOfSpaced | file-monitor/src/main.rs:54-72 | words laid out with any whitespace around and between them split back into exactly those words |
| MonitorRepl.Parse | file-monitor/src/main.rs:72-135 | a recognised line is exactly its command's spelling, keyword and word count both matching; the command is `quit` exactly when the only word is `quit` |
| MonitorRepl.ParseRender | file-monitor/src/main.rs:72-135 | every command is recognised from its own spelling |
| MonitorRepl.Recent | file-monitor/src/main.rs:127-133 | the history shown is the newest entries first, at most ten |
| MonitorRepl.RecentIsReversedWindow | file-monitor/src/main.rs:127-133 | the history shown is the last ten entries, reversed |
| MonitorRepl.RecordedEventShownFirst | file-monitor/src/main.rs:127-133 | right after an event is recorded, it is the first entry shown |
| MonitorRepl.Execute | file-monitor/src/main.rs:72-137 | only `quit` stops; an unknown command changes nothing and prints the hint; help, statistics, history and quit leave the monitor as it is; statistics and history show the monitor's counts and its recent entries; `update` leaves what the path update leaves and fails exactly when it fails; `substitute` sets the displayed substitute exactly when the old path is the current one; `add_substitution` and `remove_substitution` change that one lookup and nothing else; `pause` and `resume` set and clear the flag and change nothing else; only a path update can fail, and then at most the watcher has changed |
| MonitorRepl.PauseLineStopsRecording | file-monitor/src/main.rs:110-114 | after a `pause` line, the monitor is paused with nothing else changed, and no sequence of watcher events changes it |
| MonitorRepl.ResumeLineRestores | file-monitor/src/main.rs:115-119 | a `resume` line clears the pause, changes nothing else and keeps the loop going |
| MonitorRepl.HandleLine | file-monitor/src/main.rs:71-137 | the loop stops exactly when the line's only word is `quit`; an unrecognised line changes nothing and prints the hint; a failing command changes at most the watcher |
| MonitorRepl.RunLines | file-monitor/src/main.rs:41-66 | lines are consumed up to and including the first `quit`, or all of them when there is none |
| MonitorRepl.ReadErrorSkipped | file-monitor/src/main.rs:59-62 | a read error at the head of the input leaves the final monitor as the rest of the input does |
| MonitorRepl.ReadErrorsIgnored | file-monitor/src/main.rs:59-62 | read errors, wherever they occur, leave the final monitor as the input without them would |
| MonitorRepl.NothingAfterQuit | file-monitor/src/main.rs:53-58 | running only the consumed prefix gives the same session, so no line after the first `quit` affects the monitor |

## Left out

- Concurrency is left out: the async runtime, `Arc<Mutex<…>>` locking and the `select!` between the monitor task and standard input. In the model every operation is one atomic update.
- When the monitor task finishes, the interactive loop also ends (main.rs lines 43-50). This is not modelled; `RunLines` ends only at `quit` or at the end of input.
- Creating the watcher and the initial watch (lib.rs lines 43-54, 67-88) are not modelled, nor is the event channel. The `watcher` field stands for the installed watcher and the set of paths it watches; a sequence of observed events stands for the channel.
- All logging and printing is left out: `println!`, `info!`, `error!`, `debug!`, the help text and the statistics table. `HandleEvent` does return the event's log line, without its timestamp.
- `FileMonitor.Resolve` and `FileMonitor.Join` model Unix paths as text. Rust's `Path` compares and joins by components, and Windows prefixes and separators are not modelled.
- `FileMonitor.SubstitutePath` compares paths as plain strings, so `a/b` and `a//b` are different here while Rust considers them equal. Substitution lookups are plain string lookups for the same reason.
- `String::from_utf8_lossy` is not modelled: process output and command strings are already text.
- `FileMonitor.UpdateStats` counts with unbounded naturals and does not model `usize` overflow, which no realistic run reaches.
- Timestamps are opaque integers passed in by the caller; `Local::now()` is not modelled.
- SHA-256 is an oracle parameter, not an implementation.
- Process execution is an oracle parameter too. Its output is a success flag plus standard output and standard error.
- The build-time `cfg!(target_os = …)` switch is the `Platform` parameter.
- `as_any_mut().downcast_mut::<UsbKey>()` is modelled as a tagged result of the device wait: a key or some other device.
- The outer `loop` of the guardian ends only through the `?` on a device-wait error. It is modelled as `Run` for any number of steps `n`, with the `Exited` phase final.
- Each device answers `connect`, `disconnect`, `get_info` and a read of a given size the same way every time. The loop makes each of these calls at most once per key.
- `DeviceManager.list_devices` and `get_device` appear only as fields. The guardian never calls them.
- `UsbKey.write_data` is modelled, but nothing in the core calls it.
- `UsbKeys.ConnectKey` and `UsbKeys.DisconnectKey` have no contract of their own. They only forward to the device, and `UsbKeys.KeyForwardsToDevice` states that.
- Command-line parsing (`clap`) and logger set-up are left out.
- Reading standard input is modelled as a given sequence of lines and read errors.
- `Guardian.Step`: an error from the device wait ends the entry point through `?`; it is not retried.
- `Security.VerifyKey`: the key data hashed is whatever the device returns for a 1024-byte read, whatever its length.
- `UsbKeys.Initialize`: a key has no state that resets on disconnect; every device wait produces a new key value.
- `FileMonitor.UpdatePath`: the unwatch and watch calls are not recorded as a trace; their order shows only in the effect of a failed watch after a successful unwatch, which the contract states.

=== FILE: device_operator.dfy ===
/**
  The device capability interface. A device is described by what it
  answers to each operation during one session — the answers are the
  nondeterministic inputs of the model — and every answer is a `Result`,
  because every operation of the interface may fail.
 */
module DeviceOperator {
  import opened Results
  import opened Errors
  import opened Effects

  /** The closed set of device classes a descriptor can report. */
  datatype DeviceType = USB | Disk | Other

  /** A descriptor snapshot, as returned by `get_info`. */
  datatype DeviceInfo = DeviceInfo(name: string, id: string, deviceType: DeviceType)

  /**
    One device handle during one session. `connect` and `disconnect` are
    the only operations that take the handle mutably; their effect on the
    hardware is already part of the answers recorded here, so no operation
    yields a new handle. `onWaitForCommand(t, n)` is the answer to the
    `n`-th wait (counting from 0) made with timeout `t`.
   */
  datatype Device = Device(
    onConnect: Result<(), Error>,
    onDisconnect: Result<(), Error>,
    onRead: nat -> Result<Bytes, Error>,
    onWrite: Bytes -> Result<(), Error>,
    onGetInfo: Result<DeviceInfo, Error>,
    onWaitForCommand: (Duration, nat) -> Result<string, Error>)

  /**
    A device directory handing out devices of class `D`.
    `onWaitForDevice(t, n)` is the answer to the `n`-th wait with timeout `t`.
   */
  datatype DeviceManager<D> = DeviceManager(
    onListDevices: Result<seq<DeviceInfo>, Error>,
    onGetDevice: string -> Result<D, Error>,
    onWaitForDevice: (Duration, nat) -> Result<D, Error>)
}

=== FILE: effects.dfy ===
/**
  The guardian's boundary with the outside world: the values that cross
  it (bytes, durations, process invocations and their output) and the
  calls it makes, recorded in order so that ordering properties can be
  stated about them.
 */
module Effects {

  type byte = b: int | 0 <= b < 256
  type Bytes = seq<byte>

  /** A `std::time::Duration`; only passed through, never computed with. */
  datatype Duration = Seconds(secs: nat)

  /** The Windows process-creation flag `CREATE_NO_WINDOW`. */
  const CreateNoWindow: nat := 0x0800_0000

  /** An external process: program, arguments and creation flags (0 for none). */
  datatype Invocation = Invocation(program: string, args: seq<string>, creationFlags: nat)

  /** What a process that ran to completion produced. */
  datatype ProcessOutput = ProcessOutput(success: bool, stdout: string, stderr: string)

  /** The outcome of spawning a process and awaiting it. */
  datatype Spawned = Completed(output: ProcessOutput) | SpawnError(reason: string)

  /** The operating system's process runner, an oracle. */
  type Spawner = Invocation -> Spawned

  /** One call across the boundary. */
  datatype Call =
    | Connect
    | Disconnect
    | Read(size: nat)
    | Write(data: Bytes)
    | GetInfo
    | WaitForCommand(timeout: Duration)
    | WaitForDevice(timeout: Duration)
    | Spawn(invocation: Invocation)

  /** A result together with the calls made, in order, to compute it. */
  datatype Traced<+T> = Traced(calls: seq<Call>, result: T)
}

=== FILE: errors.dfy ===
/**
  The guardian's errors. The source reports every failure as an
  `anyhow::Error` built from a formatted message; here each origin is a
  variant and `Message` renders the text the source formats.
 */
module Errors {
  import opened Text

  datatype Error =
    /** any failure reported by a device or a device manager (I/O, timeout, not found) */
    | DeviceFailure(reason: string)
    /** the external process could not be spawned */
    | SpawnFailure(reason: string)
    /** the descriptor's type is not `USB` */
    | NotUsbDevice
    /** the descriptor's id is not the configured key id */
    | UnexpectedKey
    /** the digest of the key data does not match the expected one */
    | KeyAuthenticationFailed
    /** a command outside the six recognised ones */
    | UnknownCommand(command: string)
    /** a script exited with a failure status */
    | ScriptFailed(script: string, stderr: string)
    /** the process listing exited with a failure status */
    | StatusCheckFailed(stderr: string)

  const ScriptFailedPrefix := "Script execution failed: "
  const ScriptFailedMiddle := "\nError: "

  function Message(e: Error): string {
    match e
    case DeviceFailure(reason) => reason
    case SpawnFailure(reason) => reason
    case NotUsbDevice => "Not a USB device"
    case UnexpectedKey => "Unexpected USB key"
    case KeyAuthenticationFailed => "Key authentication failed"
    case UnknownCommand(command) => "Unknown command: " + command
    case ScriptFailed(script, stderr) => ScriptFailedPrefix + script + ScriptFailedMiddle + stderr
    case StatusCheckFailed(stderr) => "Status check failed: " + stderr
  }

  /** A failed script's message names the script and carries its whole standard error. */
  lemma ScriptFailureMessage(script: string, stderr: string)
    ensures OccursAt(Message(ScriptFailed(script, stderr)), script, |ScriptFailedPrefix|)
    ensures Contains(Message(ScriptFailed(script, stderr)), stderr)
  {
    PartOfConcatenation(ScriptFailedPrefix, script, ScriptFailedMiddle + stderr);
    assert Message(ScriptFailed(script, stderr)) == ScriptFailedPrefix + script + ScriptFailedMiddle + stderr + "";
    assert ScriptFailedPrefix + script + ScriptFailedMiddle + stderr
        == ScriptFailedPrefix + script + (ScriptFailedMiddle + stderr);
    PartOfConcatenation(ScriptFailedPrefix + script + ScriptFailedMiddle, stderr, "");
  }

  /** A failed status check's message carries the whole standard error. */
  lemma StatusFailureMessage(stderr: string)
    ensures Contains(Message(StatusCheckFailed(stderr)), stderr)
  {
    PartOfConcatenation("Status check failed: ", stderr, "");
    assert "Status check failed: " + stderr + "" == "Status check failed: " + stderr;
  }
}

=== FILE: file_monitor.dfy ===
/**
  The file monitor's bookkeeping with its locks erased: every operation
  is a pure update of one `Monitor` value. Paths are Unix path strings
  compared as text.
 */
module FileMonitor {
  import opened Results
  import opened Text

  type Path = string

  /** A wall-clock timestamp, only stored. */
  type Time = int

  // ---------------------------------------------------------------------
  // Watcher events and their classification

  datatype AccessMode = AnyMode | Execute | ReadMode | WriteMode | OtherMode
  datatype AccessKind = AnyAccess | ReadAccess | Open(openMode: AccessMode) | Close(closeMode: AccessMode) | OtherAccess

  /** The watcher's event kinds; the sub-kinds of create, modify and remove are never inspected. */
  datatype EventKind = Any | Access(access: AccessKind) | Create | Modify | Remove | Other

  datatype WatchEvent = WatchEvent(kind: EventKind, paths: seq<Path>)

  datatype FileEvent = Opened | Modified | Deleted | Renamed(to: Path) | Created | Closed

  /** Each file event arises from exactly the watcher events listed in the contract. */
  function MapEvent(e: WatchEvent): (r: Option<FileEvent>)
    ensures r == Some(Closed) <==> e.kind.Access? && e.kind.access.Close?
    ensures r == Some(Opened) <==> e.kind.Access? && !e.kind.access.Close?
    ensures r == Some(Modified) <==> e.kind.Modify?
    ensures r == Some(Deleted) <==> e.kind.Remove?
    ensures r == Some(Created) <==> e.kind.Create?
    ensures (r.Some? && r.value.Renamed?) <==> e.kind.Any? && |e.paths| == 2
    ensures r.Some? && r.value.Renamed? ==> r.value.to == e.paths[1]
    ensures r.None? <==> e.kind.Other? || (e.kind.Any? && |e.paths| != 2)
  {
    match e.kind
    case Access(Close(_)) => Some(Closed)
    case Access(_) => Some(Opened)
    case Modify => Some(Modified)
    case Remove => Some(Deleted)
    case Create => Some(Created)
    case Any => if |e.paths| == 2 then Some(Renamed(e.paths[1])) else None
    case Other => None
  }

  // ---------------------------------------------------------------------
  // State

  datatype Entry = Entry(time: Time, event: FileEvent)

  datatype Monitor = Monitor(
    currentPath: Path,
    /** the path shown in place of the current path, if any */
    substitute: Option<Path>,
    /** the paths the installed watcher watches; `None` while no watcher is installed */
    watcher: Option<set<Path>>,
    history: seq<Entry>,
    stats: map<FileEvent, nat>,
    paused: bool,
    substitutions: map<Path, Path>)

  datatype MonitorError = Failure(reason: string)

  const HistoryCapacity: nat := 100

  /** A fresh monitor: nothing recorded, not paused, no watcher yet. */
  function New(initialPath: Path): (m: Monitor)
    ensures m.currentPath == initialPath && m.substitute.None? && m.watcher.None?
    ensures m.history == [] && m.stats == map[] && !m.paused && m.substitutions == map[]
  {
    Monitor(initialPath, None, None, [], map[], false, map[])
  }

  // ---------------------------------------------------------------------
  // History and statistics

  /** The last `n` elements of `s` (all of `s` when it is shorter). */
  function Last<T>(s: seq<T>, n: nat): (r: seq<T>)
    ensures |r| == if |s| < n then |s| else n
  {
    if |s| <= n then s else s[|s| - n..]
  }

  /** Appends the entry and, above capacity, drops the oldest one. */
  function UpdateHistory(h: seq<Entry>, entry: Entry): (r: seq<Entry>)
    ensures |h| <= HistoryCapacity ==> |r| <= HistoryCapacity
    ensures |r| > 0 && r[|r| - 1] == entry
    ensures |h| < HistoryCapacity ==> r == h + [entry]
    ensures |h| >= HistoryCapacity ==> r == h[1..] + [entry]
  {
    var pushed := h + [entry];
    if |pushed| > HistoryCapacity then pushed[1..] else pushed
  }

  /** Appending to a full window and trimming gives the window of the longer sequence. */
  lemma UpdateHistoryWindow(s: seq<Entry>, entry: Entry)
    ensures UpdateHistory(Last(s, HistoryCapacity), entry) == Last(s + [entry], HistoryCapacity)
  {
  }

  function Count(stats: map<FileEvent, nat>, e: FileEvent): nat {
    if e in stats then stats[e] else 0
  }

  /** Adds one to the count of `event`, a missing count being zero; every other count stays. */
  function UpdateStats(stats: map<FileEvent, nat>, event: FileEvent): (r: map<FileEvent, nat>)
    ensures Count(r, event) == Count(stats, event) + 1
    ensures forall e :: e != event ==> Count(r, e) == Count(stats, e)
    ensures r.Keys == stats.Keys + {event}
  {
    stats[event := Count(stats, event) + 1]
  }

  /** The path shown for the monitored file: the substitute if one is set. */
  function DisplayPath(m: Monitor): Path {
    match m.substitute
    case Some(p) => p
    case None => m.currentPath
  }

  /** The text before the displayed path in an event's log line. */
  function EventHead(event: FileEvent): string {
    match event
    case Opened => "File opened: "
    case Modified => "File modified: "
    case Deleted => "File deleted: "
    case Created => "File created: "
    case Closed => "File closed: "
    case Renamed(_) => "File renamed from "
  }

  /** The text after the displayed path and its substitution: only a rename names a second path. */
  function EventTail(m: Monitor, event: FileEvent): string {
    match event
    case Renamed(to) => " to " + to + " (actual: " + GetSubstitutedPath(m, to) + ")"
    case _ => ""
  }

  /** The log line for an event, naming the displayed path and its substitution. */
  function EventMessage(m: Monitor, event: FileEvent): string {
    var shown := DisplayPath(m);
    EventHead(event) + shown + " (actual: " + GetSubstitutedPath(m, shown) + ")" + EventTail(m, event)
  }

  datatype Handled = Handled(monitor: Monitor, message: string)

  /** Records an event: its log line, one more history entry, one more count. */
  function HandleEvent(m: Monitor, time: Time, event: FileEvent): (r: Handled)
    ensures r.monitor == m.(history := UpdateHistory(m.history, Entry(time, event)),
                            stats := UpdateStats(m.stats, event))
    ensures Contains(r.message, DisplayPath(m))
    ensures Contains(r.message, GetSubstitutedPath(m, DisplayPath(m)))
  {
    var message := EventMessage(m, event);
    MessageNamesPaths(m, event);
    Handled(m.(history := UpdateHistory(m.history, Entry(time, event)),
               stats := UpdateStats(m.stats, event)), message)
  }

  lemma MessageNamesPaths(m: Monitor, event: FileEvent)
    ensures Contains(EventMessage(m, event), DisplayPath(m))
    ensures Contains(EventMessage(m, event), GetSubstitutedPath(m, DisplayPath(m)))
  {
    var shown := DisplayPath(m);
    LogLineParts(EventHead(event), shown, GetSubstitutedPath(m, shown), EventTail(m, event));
  }

  /** A log line shows its path right after its head, and contains the path's substitution. */
  lemma LogLineParts(head: string, shown: Path, actual: Path, tail: string)
    ensures OccursAt(head + shown + " (actual: " + actual + ")" + tail, shown, |head|)
    ensures Contains(head + shown + " (actual: " + actual + ")" + tail, shown)
    ensures Contains(head + shown + " (actual: " + actual + ")" + tail, actual)
  {
    var msg := head + shown + " (actual: " + actual + ")" + tail;
    assert msg == head + shown + (" (actual: " + actual + ")" + tail);
    PartOfConcatenation(head, shown, " (actual: " + actual + ")" + tail);
    assert msg == (head + shown + " (actual: ") + actual + (")" + tail);
    PartOfConcatenation(head + shown + " (actual: ", actual, ")" + tail);
  }

  /** The monitoring loop's handling of one watcher event: ignored while paused or unclassified. */
  function OnWatchEvent(m: Monitor, time: Time, w: WatchEvent): (r: Monitor)
    ensures m.paused ==> r == m
    ensures MapEvent(w).None? ==> r == m
    ensures !m.paused && MapEvent(w).Some? ==> r == HandleEvent(m, time, MapEvent(w).value).monitor
  {
    if m.paused then m
    else
      match MapEvent(w)
      case None => m
      case Some(event) => HandleEvent(m, time, event).monitor
  }

  datatype Observed = Observed(time: Time, event: WatchEvent)

  /** The monitoring loop over a sequence of watcher events, oldest first: it only ever records, keeping history within capacity. */
  function Replay(m: Monitor, ws: seq<Observed>): (r: Monitor)
    ensures r == m.(history := r.history, stats := r.stats)
    ensures |m.history| <= HistoryCapacity ==> |r.history| <= HistoryCapacity
    decreases |ws|
  {
    if |ws| == 0 then m
    else
      var last := ws[|ws| - 1];
      OnWatchEvent(Replay(m, ws[..|ws| - 1]), last.time, last.event)
  }

  /** The entries that classified watcher events produce, oldest first. */
  function Accepted(ws: seq<Observed>): seq<Entry>
    decreases |ws|
  {
    if |ws| == 0 then []
    else
      var last := ws[|ws| - 1];
      Accepted(ws[..|ws| - 1]) +
        match MapEvent(last.event)
        case None => []
        case Some(e) => [Entry(last.time, e)]
  }

  /** How many entries record `e`. */
  function Occurrences(es: seq<Entry>, e: FileEvent): nat
    decreases |es|
  {
    if |es| == 0 then 0
    else Occurrences(es[..|es| - 1], e) + if es[|es| - 1].event == e then 1 else 0
  }

  /** While paused, no watcher event changes anything. */
  lemma {:induction false} PausedReplayChangesNothing(m: Monitor, ws: seq<Observed>)
    requires m.paused
    ensures Replay(m, ws) == m
    decreases |ws|
  {
    if |ws| > 0 {
      PausedReplayChangesNothing(m, ws[..|ws| - 1]);
    }
  }

  /** While not paused, the history is the last 100 of all recorded entries. */
  lemma {:induction false} ReplayHistory(m: Monitor, ws: seq<Observed>)
    requires !m.paused && |m.history| <= HistoryCapacity
    ensures Replay(m, ws).history == Last(m.history + Accepted(ws), HistoryCapacity)
    decreases |ws|
  {
    if |ws| == 0 {
      assert m.history + [] == m.history;
    } else {
      var init := ws[..|ws| - 1];
      var last := ws[|ws| - 1];
      var before := Replay(m, init);
      ReplayHistory(m, init);
      assert !before.paused;
      assert Replay(m, ws) == OnWatchEvent(before, last.time, last.event);
      match MapEvent(last.event)
      case None =>
        assert Accepted(ws) == Accepted(init) + [];
        assert Accepted(init) + [] == Accepted(init);
      case Some(fe) =>
        var entry := Entry(last.time, fe);
        assert Accepted(ws) == Accepted(init) + [entry];
        UpdateHistoryWindow(m.history + Accepted(init), entry);
        assert m.history + Accepted(init) + [entry] == m.history + Accepted(ws);
    }
  }

  /** While not paused, each count grows by the number of recorded events of its kind. */
  lemma {:induction false} ReplayCounts(m: Monitor, ws: seq<Observed>, e: FileEvent)
    requires !m.paused
    ensures Count(Replay(m, ws).stats, e) == Count(m.stats, e) + Occurrences(Accepted(ws), e)
    decreases |ws|
  {
    if |ws| > 0 {
      var init := ws[..|ws| - 1];
      var last := ws[|ws| - 1];
      var before := Replay(m, init);
      ReplayCounts(m, init, e);
      assert !before.paused;
      assert Replay(m, ws) == OnWatchEvent(before, last.time, last.event);
      match MapEvent(last.event)
      case None =>
        assert Accepted(ws) == Accepted(init) + [];
        assert Accepted(init) + [] == Accepted(init);
      case Some(fe) =>
        var entry := Entry(last.time, fe);
        var acc := Accepted(ws);
        assert acc == Accepted(init) + [entry];
        assert acc[..|acc| - 1] == Accepted(init);
        assert Occurrences(acc, e) == Occurrences(Accepted(init), e) + if fe == e then 1 else 0;
        assert Replay(m, ws).stats == UpdateStats(before.stats, fe);
    }
  }

  /**
    While not paused, the history is the last 100 of all recorded entries
    and each count grows by the number of recorded events of its kind
    (`Replay` itself promises that nothing else changes).
   */
  lemma ReplayRecords(m: Monitor, ws: seq<Observed>, e: FileEvent)
    requires !m.paused && |m.history| <= HistoryCapacity
    ensures Replay(m, ws).history == Last(m.history + Accepted(ws), HistoryCapacity)
    ensures Count(Replay(m, ws).stats, e) == Count(m.stats, e) + Occurrences(Accepted(ws), e)
  {
    ReplayHistory(m, ws);
    ReplayCounts(m, ws, e);
  }

  // ---------------------------------------------------------------------
  // Operations behind the interactive commands

  /** Whether a path is absolute (has a root). */
  predicate IsAbsolute(p: Path) {
    |p| > 0 && p[0] == '/'
  }

  /** `base` joined with a relative path: a separator is added unless `base` is empty or ends in one. */
  function Join(base: Path, rel: Path): (r: Path)
    ensures |base| + |rel| <= |r| <= |base| + |rel| + 1
    ensures r[..|base|] == base && r[|r| - |rel|..] == rel
    ensures |r| == |base| + |rel| + 1 ==> r[|base|] == '/'
    ensures (|base| == 0 || base[|base| - 1] == '/') ==> r == base + rel
    ensures |base| > 0 && base[|base| - 1] != '/' ==> r == base + "/" + rel
    ensures IsAbsolute(base) ==> IsAbsolute(r)
  {
    if |base| == 0 || base[|base| - 1] == '/' then base + rel else base + "/" + rel
  }

  /** The absolute form of a path given the process's current directory (which may be unavailable). */
  function Resolve(p: Path, cwd: Result<Path, MonitorError>): (r: Result<Path, MonitorError>)
    ensures IsAbsolute(p) ==> r == Ok(p)
    ensures !IsAbsolute(p) && cwd.Ok? ==>
              && r.Ok?
              && |cwd.value| + |p| <= |r.value| <= |cwd.value| + |p| + 1
              && r.value[..|cwd.value|] == cwd.value
              && r.value[|r.value| - |p|..] == p
              && (|r.value| == |cwd.value| + |p| + 1 ==> r.value[|cwd.value|] == '/')
              && (|cwd.value| == 0 || cwd.value[|cwd.value| - 1] == '/' ==> r.value == cwd.value + p)
              && (|cwd.value| > 0 && cwd.value[|cwd.value| - 1] != '/' ==> r.value == cwd.value + "/" + p)
    ensures !IsAbsolute(p) && cwd.Err? ==> r == Err(cwd.error)
  {
    if !IsAbsolute(p) then
      match cwd
      case Err(e) => Err(e)
      case Ok(dir) => Ok(Join(dir, p))
    else Ok(p)
  }

  /** What the operating system answers: the current directory and the watcher's unwatch/watch calls. */
  datatype WatchEnv = WatchEnv(
    cwd: Result<Path, MonitorError>,
    unwatch: Path -> Result<(), MonitorError>,
    watch: Path -> Result<(), MonitorError>)

  /** The monitor after a path update and whether the update succeeded: a failed update may still have changed the watcher. */
  datatype Updated = Updated(monitor: Monitor, result: Result<(), MonitorError>)

  /** The installed watcher, if any, watches the current path. */
  predicate WatchesCurrent(m: Monitor) {
    m.watcher.Some? ==> m.currentPath in m.watcher.value
  }

  /**
    Resolves the new path, then (with a watcher installed) unwatches the old
    path and watches the new one, then makes it current. Only the current
    path and the watched paths ever change. When the unwatch succeeds but
    the watch fails, the update fails with the old path still current and
    no longer watched.
   */
  function UpdatePath(m: Monitor, newPath: Path, env: WatchEnv): (r: Updated)
    ensures r.result.Ok? <==> && Resolve(newPath, env.cwd).Ok?
                              && (m.watcher.Some? ==>
                                    env.unwatch(m.currentPath).Ok? && env.watch(Resolve(newPath, env.cwd).value).Ok?)
    ensures r.monitor == m.(currentPath := r.monitor.currentPath, watcher := r.monitor.watcher)
    ensures r.result.Ok? ==> r.monitor.currentPath == Resolve(newPath, env.cwd).value
    ensures r.result.Ok? && m.watcher.Some? ==>
              r.monitor.watcher == Some(m.watcher.value - {m.currentPath} + {r.monitor.currentPath})
    ensures r.result.Ok? && m.watcher.None? ==> r.monitor.watcher.None?
    ensures r.result.Err? ==> r.monitor.currentPath == m.currentPath
    ensures Resolve(newPath, env.cwd).Err? || (m.watcher.Some? && env.unwatch(m.currentPath).Err?) ==> r.monitor == m
    ensures r.result.Err? && r.monitor != m ==>
              m.watcher.Some? && r.monitor.watcher == Some(m.watcher.value - {m.currentPath})
  {
    match Resolve(newPath, env.cwd)
    case Err(e) => Updated(m, Err(e))
    case Ok(absolute) =>
      match m.watcher
      case None => Updated(m.(currentPath := absolute), Ok(()))
      case Some(watched) =>
        match env.unwatch(m.currentPath)
        case Err(e) => Updated(m, Err(e))
        case Ok(_) =>
          var rest := watched - {m.currentPath};
          match env.watch(absolute)
          case Err(e) => Updated(m.(watcher := Some(rest)), Err(e))
          case Ok(_) => Updated(m.(currentPath := absolute, watcher := Some(rest + {absolute})), Ok(()))
  }

  /**
    A successful update keeps the current path watched; a failed one keeps it
    watched except when the unwatch succeeded and the watch failed, which
    leaves the current path unwatched.
   */
  lemma UpdatePathWatchesCurrent(m: Monitor, newPath: Path, env: WatchEnv)
    requires WatchesCurrent(m)
    ensures var r := UpdatePath(m, newPath, env);
            WatchesCurrent(r.monitor)
            <==> !(&& m.watcher.Some?
                   && Resolve(newPath, env.cwd).Ok?
                   && env.unwatch(m.currentPath).Ok?
                   && env.watch(Resolve(newPath, env.cwd).value).Err?)
  {
  }

  /** Sets the displayed path only when `oldPath` is the current path; never fails. */
  function SubstitutePath(m: Monitor, oldPath: Path, newPath: Path): (r: Result<Monitor, MonitorError>)
    ensures r.Ok?
    ensures oldPath == m.currentPath ==> r.value == m.(substitute := Some(newPath))
    ensures oldPath != m.currentPath ==> r.value == m
  {
    if m.currentPath == oldPath then Ok(m.(substitute := Some(newPath))) else Ok(m)
  }

  /**
    Substituting the current path makes every later log line show the
    substitute right after its head; substituting any other path changes
    no log line.
   */
  lemma SubstitutionShownInMessages(m: Monitor, oldPath: Path, q: Path, time: Time, event: FileEvent)
    ensures var after := SubstitutePath(m, oldPath, q).value;
            oldPath == m.currentPath ==> OccursAt(HandleEvent(after, time, event).message, q, |EventHead(event)|)
    ensures var after := SubstitutePath(m, oldPath, q).value;
            oldPath != m.currentPath ==> HandleEvent(after, time, event).message == HandleEvent(m, time, event).message
  {
    if oldPath == m.currentPath {
      var after := SubstitutePath(m, oldPath, q).value;
      LogLineParts(EventHead(event), q, GetSubstitutedPath(after, q), EventTail(after, event));
    }
  }

  function Pause(m: Monitor): (r: Result<Monitor, MonitorError>)
    ensures r == Ok(m.(paused := true))
  {
    Ok(m.(paused := true))
  }

  function Resume(m: Monitor): (r: Result<Monitor, MonitorError>)
    ensures r == Ok(m.(paused := false))
  {
    Ok(m.(paused := false))
  }

  /** Pausing raises the flag and makes the loop ignore every event; resuming lowers it and undoes nothing else. */
  lemma PauseGatesEvents(m: Monitor, ws: seq<Observed>)
    ensures Pause(m).value.paused && !Resume(m).value.paused
    ensures Replay(Pause(m).value, ws) == Pause(m).value
    ensures Resume(Pause(m).value).value == m.(paused := false)
  {
  }

  /** The mapped path if `p` has a substitution, otherwise `p` itself. */
  function GetSubstitutedPath(m: Monitor, p: Path): (r: Path)
    ensures p in m.substitutions ==> r == m.substitutions[p]
    ensures p !in m.substitutions ==> r == p
  {
    if p in m.substitutions then m.substitutions[p] else p
  }

  function AddPathSubstitution(m: Monitor, original: Path, substitute: Path): (r: Result<Monitor, MonitorError>)
    ensures r.Ok? && r.value == m.(substitutions := r.value.substitutions)
    ensures GetSubstitutedPath(r.value, original) == substitute
    ensures forall q :: q != original ==> GetSubstitutedPath(r.value, q) == GetSubstitutedPath(m, q)
  {
    Ok(m.(substitutions := m.substitutions[original := substitute]))
  }

  /** Removes a substitution if there is one; either way the call succeeds. */
  function RemovePathSubstitution(m: Monitor, original: Path): (r: Result<Monitor, MonitorError>)
    ensures r.Ok? && r.value == m.(substitutions := r.value.substitutions)
    ensures GetSubstitutedPath(r.value, original) == original
    ensures forall q :: q != original ==> GetSubstitutedPath(r.value, q) == GetSubstitutedPath(m, q)
  {
    Ok(m.(substitutions := m.substitutions - {original}))
  }

  /** Adding then removing a substitution restores every lookup. */
  lemma AddThenRemoveRestoresLookups(m: Monitor, original: Path, substitute: Path, q: Path)
    requires original !in m.substitutions
    ensures var added := AddPathSubstitution(m, original, substitute).value;
            GetSubstitutedPath(RemovePathSubstitution(added, original).value, q) == GetSubstitutedPath(m, q)
  {
  }
}

=== FILE: guardian.dfy ===
/**
  The guardian's main loop as a state machine. Each `Step` performs the
  work of one phase of the source's outer/inner loop and records, as
  events, the calls it made and the outcomes it reported. The device
  directory's answers, the devices' answers, SHA-256 and the process
  runner are the environment, carried in `Config`.
 */
module Guardian {
  import opened Results
  import opened Errors
  import opened Effects
  import opened DeviceOperator
  import opened UsbKeys
  import opened Security
  import opened Handler

  const UsbTimeout := Seconds(60)
  const CommandTimeout := Seconds(30)
  const ResponseDir := "./response"
  const ExpectedKeyHash := "your_expected_key_hash_here"

  function OsSpecificDir(p: Platform): string {
    if p == Windows then "win" else "nix"
  }

  /** The response directory joined with the platform's sub-directory. */
  function ScriptDirectory(p: Platform): (dir: string)
    ensures dir == if p == Windows then "./response\\win" else "./response/nix"
  {
    ResponseDir + Separator(p) + OsSpecificDir(p)
  }

  /** A discovered device, tagged with whether it is a USB key (the source downcasts instead). */
  datatype Discovered = Key(key: UsbKey) | NotAKey(device: Device)

  /** The configuration and the environment of one run. */
  datatype Config = Config(
    platform: Platform,
    security: SecurityManager,
    handler: CommandHandler,
    manager: DeviceManager<Discovered>,
    sha: Sha256,
    spawn: Spawner)

  /** The guardian as configured by its entry point, for a given manager and environment. */
  function Configured(p: Platform, manager: DeviceManager<Discovered>, sha: Sha256, spawn: Spawner): (c: Config)
    ensures c.platform == p && c.manager == manager && c.sha == sha && c.spawn == spawn
    ensures c.security.expectedKeyHash == "your_expected_key_hash_here"
    ensures c.handler.scriptDirectory == if p == Windows then "./response\\win" else "./response/nix"
  {
    Config(p, SecurityManager(ExpectedKeyHash), CommandHandler(ScriptDirectory(p)), manager, sha, spawn)
  }

  datatype Phase =
    | WaitingForDevice
    | Classifying(found: Discovered)
    | Initializing(key: UsbKey)
    | Authenticating(key: UsbKey)
    /** `received` waits for a command have been answered in this session */
    | CommandLoop(key: UsbKey, received: nat)
    | Disconnecting(key: UsbKey)
    /** the entry point returned this error */
    | Exited(error: Error)

  /** `round` device waits have been made so far. */
  datatype State = State(round: nat, phase: Phase)

  const Start := State(0, WaitingForDevice)

  datatype Event =
    | Called(call: Call)
    | NotAKeyIgnored
    | InitFailed(error: Error)
    | AuthFailed(error: Error)
    | KeyAuthenticated
    | Dispatched(command: string, outcome: Result<string, Error>)
    | CommandWaitEnded(error: Error)
    | DisconnectFailed(error: Error)

  datatype Stepped = Stepped(state: State, events: seq<Event>)

  function Lift(calls: seq<Call>): (es: seq<Event>)
    ensures |es| == |calls|
    ensures forall i :: 0 <= i < |calls| ==> es[i] == Called(calls[i])
  {
    if |calls| == 0 then [] else [Called(calls[0])] + Lift(calls[1..])
  }

  /**
    One transition of the entry point. Only a device wait counts a round;
    the command loop is entered only from a successful authentication and
    keeps its key; only the command loop dispatches; an exit is final.
   */
  function Step(g: Config, s: State): (st: Stepped)
    ensures s.phase.Exited? ==> st == Stepped(s, [])
    ensures st.state.round == if s.phase.WaitingForDevice? then s.round + 1 else s.round
    ensures st.state.phase.CommandLoop? ==>
              || (s.phase.Authenticating? && st.state.phase == CommandLoop(s.phase.key, 0))
              || (s.phase.CommandLoop? && st.state.phase == CommandLoop(s.phase.key, s.phase.received + 1))
    ensures s.phase.Authenticating? && st.state.phase.CommandLoop? ==>
              AuthenticateKey(g.security, g.sha, s.phase.key).result.Ok?
    ensures (exists e <- st.events :: e.Dispatched?) ==> s.phase.CommandLoop?
  {
    match s.phase
    case WaitingForDevice =>
      var wait := Called(Call.WaitForDevice(UsbTimeout));
      (match g.manager.onWaitForDevice(UsbTimeout, s.round)
       case Err(e) => Stepped(State(s.round + 1, Exited(e)), [wait])
       case Ok(found) => Stepped(State(s.round + 1, Classifying(found)), [wait]))
    case Classifying(found) =>
      (match found
       case Key(k) => Stepped(s.(phase := Initializing(k)), [])
       case NotAKey(_) => Stepped(s.(phase := WaitingForDevice), [NotAKeyIgnored]))
    case Initializing(k) =>
      var t := Initialize(k);
      if t.result.Ok? then Stepped(s.(phase := Authenticating(k)), Lift(t.calls))
      else Stepped(s.(phase := WaitingForDevice), Lift(t.calls) + [InitFailed(t.result.error)])
    case Authenticating(k) =>
      var t := AuthenticateKey(g.security, g.sha, k);
      if t.result.Ok? then Stepped(s.(phase := CommandLoop(k, 0)), Lift(t.calls) + [KeyAuthenticated])
      else Stepped(s.(phase := WaitingForDevice), Lift(t.calls) + [AuthFailed(t.result.error)])
    case CommandLoop(k, n) =>
      var wait := WaitForKeyCommand(k, CommandTimeout, n);
      (match wait.result
       case Ok(command) =>
         var h := HandleCommand(g.handler, g.platform, g.spawn, command);
         Stepped(s.(phase := CommandLoop(k, n + 1)), Lift(wait.calls) + Lift(h.calls) + [Dispatched(command, h.result)])
       case Err(e) =>
         Stepped(s.(phase := Disconnecting(k)), Lift(wait.calls) + [CommandWaitEnded(e)]))
    case Disconnecting(k) =>
      var t := DisconnectKey(k);
      var report := if t.result.Err? then [DisconnectFailed(t.result.error)] else [];
      Stepped(s.(phase := WaitingForDevice), Lift(t.calls) + report)
    case Exited(_) => Stepped(s, [])
  }

  datatype Outcome = Outcome(state: State, events: seq<Event>)

  /** `n` steps from `s`, with every event in order; each step waits for at most one device. */
  function Run(g: Config, s: State, n: nat): (o: Outcome)
    ensures s.round <= o.state.round <= s.round + n
    decreases n
  {
    if n == 0 then Outcome(s, [])
    else
      var before := Run(g, s, n - 1);
      var st := Step(g, before.state);
      Outcome(st.state, before.events + st.events)
  }

  // ---------------------------------------------------------------------
  // Single transitions

  /** A device-directory error ends the entry point with that error. */
  lemma DeviceWaitErrorExits(g: Config, s: State)
    requires s.phase.WaitingForDevice? && g.manager.onWaitForDevice(UsbTimeout, s.round).Err?
    ensures Step(g, s).state.phase == Exited(g.manager.onWaitForDevice(UsbTimeout, s.round).error)
  {
  }

  /** Once exited, nothing more happens. */
  lemma {:induction false} ExitedIsFinal(g: Config, s: State, n: nat)
    requires s.phase.Exited?
    ensures Run(g, s, n) == Outcome(s, [])
  {
    if n > 0 {
      ExitedIsFinal(g, s, n - 1);
    }
  }

  /** A device that is not a USB key is ignored without a single call, and the loop waits again. */
  lemma NonKeyIgnored(g: Config, s: State, d: Device)
    requires s.phase == Classifying(NotAKey(d))
    ensures Step(g, s) == Stepped(s.(phase := WaitingForDevice), [NotAKeyIgnored])
  {
  }

  /** A failed initialisation skips authentication and the command loop, and never disconnects. */
  lemma InitFailureSkipsSession(g: Config, s: State, k: UsbKey)
    requires s.phase == Initializing(k) && !IsExpectedKey(k)
    ensures Step(g, s).state.phase == WaitingForDevice
    ensures forall e <- Step(g, s).events ::
              !(e.Called? && (e.call.Read? || e.call.Disconnect? || e.call.WaitForCommand?)) && !e.KeyAuthenticated?
  {
  }

  /** A failed authentication reads no command and dispatches nothing. */
  lemma AuthFailureSkipsCommands(g: Config, s: State, k: UsbKey)
    requires s.phase == Authenticating(k) && AuthenticateKey(g.security, g.sha, k).result.Err?
    ensures Step(g, s).state.phase == WaitingForDevice
    ensures forall e <- Step(g, s).events :: !SessionEvent(e) && !e.KeyAuthenticated?
  {
  }

  /** Whatever the handler answers, the session goes on waiting for the next command. */
  lemma HandlerErrorKeepsSession(g: Config, s: State, k: UsbKey, n: nat)
    requires s.phase == CommandLoop(k, n) && k.device.onWaitForCommand(CommandTimeout, n).Ok?
    ensures Step(g, s).state.phase == CommandLoop(k, n + 1)
  {
  }

  /**
    A failed command wait leads, in two steps, back to waiting for a
    device with exactly one disconnect in between, whether or not the
    disconnect succeeds.
   */
  lemma CommandWaitErrorDisconnectsOnce(g: Config, s: State, k: UsbKey, n: nat)
    requires s.phase == CommandLoop(k, n) && k.device.onWaitForCommand(CommandTimeout, n).Err?
    ensures Run(g, s, 2).state.phase == WaitingForDevice
    ensures CountDisconnects(Run(g, s, 2).events) == 1
  {
    var s1 := Step(g, s);
    var s2 := Step(g, s1.state);
    assert Run(g, s, 1).state == s1.state && Run(g, s, 1).events == s1.events;
    CountDisconnectsAppend(s1.events, s2.events);
    CountDisconnectsAppend(Lift(DisconnectKey(k).calls), s2.events[1..]);
    assert s1.events == [Called(WaitForCommand(CommandTimeout)), CommandWaitEnded(k.device.onWaitForCommand(CommandTimeout, n).error)];
    assert CountDisconnects(s1.events) == 0;
  }

  function CountDisconnects(es: seq<Event>): nat {
    if |es| == 0 then 0
    else (if es[0] == Called(Call.Disconnect) then 1 else 0) + CountDisconnects(es[1..])
  }

  lemma {:induction false} CountDisconnectsAppend(a: seq<Event>, b: seq<Event>)
    ensures CountDisconnects(a + b) == CountDisconnects(a) + CountDisconnects(b)
    decreases |a|
  {
    if |a| == 0 {
      assert a + b == b;
    } else {
      assert (a + b)[1..] == a[1..] + b;
      CountDisconnectsAppend(a[1..], b);
    }
  }

  // ---------------------------------------------------------------------
  // Commands are dispatched only inside an authenticated session

  /** An event that belongs to an authenticated session. */
  predicate SessionEvent(e: Event) {
    || e.Dispatched?
    || (e.Called? && (e.call.WaitForCommand? || e.call.Spawn? || e.call.Disconnect?))
  }

  /** An event that opens or closes a session. */
  predicate Boundary(e: Event) {
    e.KeyAuthenticated? || (e.Called? && e.call.WaitForDevice?)
  }

  /** The latest session boundary in `t` is a successful authentication. */
  predicate Armed(t: seq<Event>)
    decreases |t|
  {
    if |t| == 0 then false
    else if t[|t| - 1].KeyAuthenticated? then true
    else if Boundary(t[|t| - 1]) then false
    else Armed(t[..|t| - 1])
  }

  /** Every session event is preceded by an authentication with no device wait in between. */
  ghost predicate SessionEventsArmed(t: seq<Event>) {
    forall j :: 0 <= j < |t| && SessionEvent(t[j]) ==> Armed(t[..j])
  }

  /** The key in an authentication, command or disconnect phase passed the checks its session needed. */
  ghost predicate Consistent(g: Config, s: State) {
    match s.phase
    case Authenticating(k) => IsExpectedKey(k)
    case CommandLoop(k, _) => IsExpectedKey(k) && AuthenticateKey(g.security, g.sha, k).result.Ok?
    case Disconnecting(k) => IsExpectedKey(k) && AuthenticateKey(g.security, g.sha, k).result.Ok?
    case _ => true
  }

  lemma {:induction false} ArmedIgnoresNonBoundary(t: seq<Event>, u: seq<Event>)
    requires forall i :: 0 <= i < |u| ==> !Boundary(u[i])
    ensures Armed(t + u) == Armed(t)
    decreases |u|
  {
    if |u| == 0 {
      assert t + u == t;
    } else {
      var v := u[..|u| - 1];
      assert (t + u)[..|t + u| - 1] == t + v;
      ArmedIgnoresNonBoundary(t, v);
    }
  }

  /** Appending events none of which is a session event or a boundary keeps the history's properties. */
  lemma ExtendQuiet(t: seq<Event>, u: seq<Event>)
    requires SessionEventsArmed(t)
    requires forall i :: 0 <= i < |u| ==> !SessionEvent(u[i])
    ensures SessionEventsArmed(t + u)
  {
    forall j | 0 <= j < |t + u| && SessionEvent((t + u)[j])
      ensures Armed((t + u)[..j])
    {
      assert j < |t|;
      assert (t + u)[..j] == t[..j];
    }
  }

  /** Appending boundary-free events to an armed history keeps it armed throughout. */
  lemma ExtendArmed(t: seq<Event>, u: seq<Event>)
    requires SessionEventsArmed(t) && Armed(t)
    requires forall i :: 0 <= i < |u| ==> !Boundary(u[i])
    ensures SessionEventsArmed(t + u) && Armed(t + u)
  {
    ArmedIgnoresNonBoundary(t, u);
    forall j | 0 <= j < |t + u| && SessionEvent((t + u)[j])
      ensures Armed((t + u)[..j])
    {
      if j < |t| {
        assert (t + u)[..j] == t[..j];
      } else {
        assert (t + u)[..j] == t + u[..j - |t|];
        ArmedIgnoresNonBoundary(t, u[..j - |t|]);
      }
    }
  }

  /** One step keeps the run's invariant. */
  lemma StepKeepsInvariant(g: Config, s: State, t: seq<Event>)
    requires Consistent(g, s) && SessionEventsArmed(t)
    requires (s.phase.CommandLoop? || s.phase.Disconnecting?) ==> Armed(t)
    ensures var st := Step(g, s);
            && Consistent(g, st.state)
            && SessionEventsArmed(t + st.events)
            && ((st.state.phase.CommandLoop? || st.state.phase.Disconnecting?) ==> Armed(t + st.events))
  {
    var st := Step(g, s);
    match s.phase
    case WaitingForDevice =>
      ExtendQuiet(t, st.events);
    case Classifying(_) =>
      ExtendQuiet(t, st.events);
    case Initializing(k) =>
      ExtendQuiet(t, st.events);
    case Authenticating(k) =>
      ExtendQuiet(t, st.events);
      if st.state.phase.CommandLoop? {
        assert st.events[|st.events| - 1] == KeyAuthenticated;
        assert Armed(t + st.events);
      }
    case CommandLoop(k, n) =>
      ExtendArmed(t, st.events);
    case Disconnecting(k) =>
      ExtendArmed(t, st.events);
    case Exited(_) =>
      assert t + st.events == t;
  }

  /**
    In every run from the start: every command dispatch, script or status
    process, command wait and disconnect comes after a successful
    authentication with no device wait in between; and a key in the
    authentication phase passed `initialize`, a key in the command or
    disconnect phase passed both `initialize` and authentication.
   */
  lemma {:induction false} RunInvariant(g: Config, n: nat)
    ensures Consistent(g, Run(g, Start, n).state)
    ensures SessionEventsArmed(Run(g, Start, n).events)
    ensures var o := Run(g, Start, n);
            (o.state.phase.CommandLoop? || o.state.phase.Disconnecting?) ==> Armed(o.events)
  {
    if n > 0 {
      var before := Run(g, Start, n - 1);
      var st := Step(g, before.state);
      assert Run(g, Start, n) == Outcome(st.state, before.events + st.events);
      assert && Consistent(g, st.state)
             && SessionEventsArmed(before.events + st.events)
             && ((st.state.phase.CommandLoop? || st.state.phase.Disconnecting?) ==> Armed(before.events + st.events)) by {
        RunInvariant(g, n - 1);
        StepKeepsInvariant(g, before.state, before.events);
      }
    }
  }

  /** A command is dispatched only with a key that passed both `initialize` and authentication. */
  lemma DispatchOnlyWithAcceptedKey(g: Config, n: nat)
    ensures var s := Run(g, Start, n).state;
            (exists e <- Step(g, s).events :: e.Dispatched?) ==>
              s.phase.CommandLoop? && IsExpectedKey(s.phase.key)
              && AuthenticateKey(g.security, g.sha, s.phase.key).result.Ok?
  {
    RunInvariant(g, n);
  }

  /** In the command loop, a command received from the key is handed to the handler. */
  lemma CommandIsDispatched(g: Config, s: State, c: string)
    requires s.phase.CommandLoop?
    requires s.phase.key.device.onWaitForCommand(CommandTimeout, s.phase.received) == Ok(c)
    ensures Step(g, s).state.phase == CommandLoop(s.phase.key, s.phase.received + 1)
    ensures Dispatched(c, HandleCommand(g.handler, g.platform, g.spawn, c).result) in Step(g, s).events
  {
  }

  /**
    Dispatch is reachable: when the first device found is the expected key
    and it authenticates, four steps reach the command loop, and the first
    command the key sends is then dispatched.
   */
  lemma DispatchReachable(g: Config, k: UsbKey, c: string)
    requires g.manager.onWaitForDevice(UsbTimeout, 0) == Ok(Key(k))
    requires IsExpectedKey(k)
    requires AuthenticateKey(g.security, g.sha, k).result.Ok?
    requires k.device.onWaitForCommand(CommandTimeout, 0) == Ok(c)
    ensures Run(g, Start, 4).state == State(1, CommandLoop(k, 0))
    ensures Dispatched(c, HandleCommand(g.handler, g.platform, g.spawn, c).result) in Step(g, Run(g, Start, 4).state).events
  {
    assert Run(g, Start, 1).state == State(1, Classifying(Key(k)));
    assert Run(g, Start, 2).state == State(1, Initializing(k));
    assert Run(g, Start, 3).state == State(1, Authenticating(k));
    assert Run(g, Start, 4).state == State(1, CommandLoop(k, 0));
    CommandIsDispatched(g, Run(g, Start, 4).state, c);
  }

  // ---------------------------------------------------------------------
  // The placeholder device directory of the entry point

  const PlaceholderKeyId := "placeholder_key_id"
  const PlaceholderInfo := DeviceInfo("Placeholder", "placeholder_id", USB)

  /** Every operation succeeds; reads are empty; every wait yields `PLACEHOLDER_COMMAND`. */
  const PlaceholderDevice := Device(
    Ok(()),
    Ok(()),
    (size: nat) => Ok([]),
    (data: Bytes) => Ok(()),
    Ok(PlaceholderInfo),
    (timeout: Duration, n: nat) => Ok("PLACEHOLDER_COMMAND"))

  /** Lists nothing, finds nothing by id, and hands out a placeholder key on every wait. */
  const PlaceholderManager: DeviceManager<Discovered> := DeviceManager(
    Ok([]),
    (id: string) => Err(DeviceFailure("Not implemented")),
    (timeout: Duration, n: nat) => Ok(Key(UsbKey(PlaceholderDevice, PlaceholderKeyId))))

  /** What matters of a key handed out by the placeholder directory. */
  predicate IsPlaceholderKey(k: UsbKey) {
    k.keyId == PlaceholderKeyId && k.device.onConnect.Ok? && k.device.onGetInfo == Ok(PlaceholderInfo)
  }

  ghost predicate PlaceholderPhase(s: State) {
    match s.phase
    case WaitingForDevice => true
    case Classifying(found) => found.Key? && IsPlaceholderKey(found.key)
    case Initializing(k) => IsPlaceholderKey(k)
    case _ => false
  }

  /** A placeholder key connects and reports `placeholder_id`, which is not its key id. */
  lemma PlaceholderKeyRejected(k: UsbKey)
    requires IsPlaceholderKey(k)
    ensures Initialize(k).result == Err(UnexpectedKey)
  {
  }

  /** An event the placeholder run never produces. */
  predicate Unauthenticated(e: Event) {
    !e.KeyAuthenticated? && !SessionEvent(e) && !(e.Called? && e.call.Read?)
  }

  lemma PlaceholderStep(g: Config, s: State)
    requires g.manager == PlaceholderManager
    requires PlaceholderPhase(s)
    ensures PlaceholderPhase(Step(g, s).state)
    ensures forall e <- Step(g, s).events :: Unauthenticated(e)
  {
  }

  /**
    With the placeholder directory the loop only ever waits, classifies and
    fails to initialise: it never reads key data, never authenticates and
    never reaches a session event, whatever the expected hash.
   */
  lemma {:induction false} PlaceholderNeverAuthenticates(g: Config, n: nat)
    requires g.manager == PlaceholderManager
    ensures var o := Run(g, Start, n);
            && PlaceholderPhase(o.state)
            && forall e <- o.events :: Unauthenticated(e)
  {
    if n > 0 {
      PlaceholderNeverAuthenticates(g, n - 1);
      var before := Run(g, Start, n - 1);
      PlaceholderStep(g, before.state);
      var st := Step(g, before.state);
      assert Run(g, Start, n) == Outcome(st.state, before.events + st.events);
    }
  }

  /**
    As configured on Unix, `LOCK_SCREEN` runs `bash -c ./response/nix/sl.sh`
    once; it succeeds exactly when the script exits cleanly, with its output.
   */
  lemma ConfiguredLockScreen(manager: DeviceManager<Discovered>, sha: Sha256, spawn: Spawner)
    ensures var inv := Invocation("bash", ["-c", "./response/nix/sl.sh"], 0);
            var r := HandleCommand(Configured(Unix, manager, sha, spawn).handler, Unix, spawn, "LOCK_SCREEN");
            && r.calls == [Spawn(inv)]
            && (r.result.Ok? <==> spawn(inv).Completed? && spawn(inv).output.success)
            && (r.result.Ok? ==> r.result.value == spawn(inv).output.stdout)
  {
    var h := Configured(Unix, manager, sha, spawn).handler;
    assert ScriptPath(h, Unix, "sl") == "./response/nix/sl.sh";
  }

  /**
    As configured on Windows, `LOCK_SCREEN` runs `cmd /C ./response\win\sl.bat`
    without a console window, once; it succeeds exactly when the script exits
    cleanly, with its output.
   */
  lemma ConfiguredLockScreenWindows(manager: DeviceManager<Discovered>, sha: Sha256, spawn: Spawner)
    ensures var inv := Invocation("cmd", ["/C", "./response\\win\\sl.bat"], CreateNoWindow);
            var r := HandleCommand(Configured(Windows, manager, sha, spawn).handler, Windows, spawn, "LOCK_SCREEN");
            && r.calls == [Spawn(inv)]
            && (r.result.Ok? <==> spawn(inv).Completed? && spawn(inv).output.success)
            && (r.result.Ok? ==> r.result.value == spawn(inv).output.stdout)
  {
    var h := Configured(Windows, manager, sha, spawn).handler;
    assert ScriptPath(h, Windows, "sl") == "./response\\win\\sl.bat";
  }

  /** The configured expected hash is not lower-case hex, so no key could pass the gate. */
  lemma ConfiguredHashRejectsEveryKey(p: Platform, manager: DeviceManager<Discovered>, sha: Sha256, spawn: Spawner, k: UsbKey)
    ensures AuthenticateKey(Configured(p, manager, sha, spawn).security, sha, k).result.Err?
  {
  }
}

=== FILE: handler.dfy ===
/**
  The command dispatcher. Six case-sensitive command strings are
  recognised: five run a script named by a two-letter code, one lists
  processes. Every other string fails without running anything. Success
  is decided by the exit status the process oracle reports.
 */
module Handler {
  import opened Results
  import opened Errors
  import opened Effects
  import opened Text

  /** The target platform, fixed at build time in the source. */
  datatype Platform = Windows | Unix

  datatype CommandHandler = CommandHandler(scriptDirectory: string)

  /** What a recognised command does. */
  datatype Action = RunScript(code: string) | CheckStatus

  const RecognisedCommands: set<string> :=
    {"ALLOW_NETWORK", "BLOCK_NETWORK", "LOCK_SCREEN", "LOCK_USB", "UNLOCK_USB", "CHECK_STATUS"}

  const ScriptCodes: set<string> := {"an", "bn", "sl", "lu", "uu"}

  /** The action of a command string, or `None` for an unrecognised one. */
  function Route(command: string): (a: Option<Action>)
    ensures a.Some? <==> command in RecognisedCommands
    ensures a == Some(CheckStatus) <==> command == "CHECK_STATUS"
    ensures a.Some? && a.value.RunScript? ==> a.value.code in ScriptCodes
  {
    if command == "ALLOW_NETWORK" then Some(RunScript("an"))
    else if command == "BLOCK_NETWORK" then Some(RunScript("bn"))
    else if command == "LOCK_SCREEN" then Some(RunScript("sl"))
    else if command == "LOCK_USB" then Some(RunScript("lu"))
    else if command == "UNLOCK_USB" then Some(RunScript("uu"))
    else if command == "CHECK_STATUS" then Some(CheckStatus)
    else None
  }

  /** The command string that selects an action (the inverse of `Route`). */
  function CommandFor(a: Action): string {
    match a
    case CheckStatus => "CHECK_STATUS"
    case RunScript(code) =>
      if code == "an" then "ALLOW_NETWORK"
      else if code == "bn" then "BLOCK_NETWORK"
      else if code == "sl" then "LOCK_SCREEN"
      else if code == "lu" then "LOCK_USB"
      else if code == "uu" then "UNLOCK_USB"
      else ""
  }

  /** `Route` and `CommandFor` are inverse on the six commands, so `Route` is injective there. */
  lemma RouteIsInvertible(command: string, a: Action)
    requires a.CheckStatus? || a.code in ScriptCodes
    ensures Route(command) == Some(a) <==> CommandFor(a) == command
  {
  }

  /** Two recognised commands with the same action are the same command. */
  lemma RouteInjective(c1: string, c2: string)
    requires Route(c1).Some? && Route(c1) == Route(c2)
    ensures c1 == c2
  {
  }

  function Separator(p: Platform): string {
    if p == Windows then "\\" else "/"
  }

  function Extension(p: Platform): string {
    if p == Windows then ".bat" else ".sh"
  }

  /** The script file for a code: directory, separator, code, platform extension. */
  function ScriptPath(h: CommandHandler, p: Platform, code: string): string {
    h.scriptDirectory + Separator(p) + code + Extension(p)
  }

  /** `cmd /C <path>` without a console window on Windows, `bash -c <path>` elsewhere. */
  function ScriptInvocation(h: CommandHandler, p: Platform, code: string): (inv: Invocation)
    ensures p == Windows ==> inv == Invocation("cmd", ["/C", h.scriptDirectory + "\\" + code + ".bat"], CreateNoWindow)
    ensures p == Unix ==> inv == Invocation("bash", ["-c", h.scriptDirectory + "/" + code + ".sh"], 0)
  {
    var path := ScriptPath(h, p, code);
    if p == Windows then Invocation("cmd", ["/C", path], CreateNoWindow)
    else Invocation("bash", ["-c", path], 0)
  }

  /** `tasklist` on Windows, `ps aux` elsewhere. */
  function StatusInvocation(p: Platform): (inv: Invocation)
    ensures p == Windows ==> inv == Invocation("tasklist", [], 0)
    ensures p == Unix ==> inv == Invocation("ps", ["aux"], 0)
  {
    if p == Windows then Invocation("tasklist", [], 0) else Invocation("ps", ["aux"], 0)
  }

  /** The process an action runs. */
  function InvocationFor(h: CommandHandler, p: Platform, a: Action): Invocation {
    match a
    case RunScript(code) => ScriptInvocation(h, p, code)
    case CheckStatus => StatusInvocation(p)
  }

  /**
    Runs one script: a spawn failure propagates, a successful exit yields
    the captured standard output, a failing exit an error naming the
    script and carrying its standard error.
   */
  function RunScriptFor(h: CommandHandler, p: Platform, spawn: Spawner, code: string): (r: Traced<Result<string, Error>>)
    ensures r.calls == [Spawn(ScriptInvocation(h, p, code))]
    ensures var out := spawn(ScriptInvocation(h, p, code));
            && (r.result.Ok? <==> out.Completed? && out.output.success)
            && (r.result.Ok? ==> r.result.value == out.output.stdout)
            && (out.SpawnError? ==> r.result == Err(SpawnFailure(out.reason)))
            && (out.Completed? && !out.output.success ==>
                  r.result.Err? && Contains(Message(r.result.error), code)
                  && Contains(Message(r.result.error), out.output.stderr))
  {
    var inv := ScriptInvocation(h, p, code);
    match spawn(inv)
    case SpawnError(reason) => Traced([Spawn(inv)], Err(SpawnFailure(reason)))
    case Completed(out) =>
      if out.success then Traced([Spawn(inv)], Ok(out.stdout))
      else
        ScriptFailureMessage(code, out.stderr);
        assert OccursAt(Message(ScriptFailed(code, out.stderr)), code, |ScriptFailedPrefix|);
        Traced([Spawn(inv)], Err(ScriptFailed(code, out.stderr)))
  }

  /** Lists processes: standard output on success, an error carrying standard error otherwise. */
  function CheckStatusWith(p: Platform, spawn: Spawner): (r: Traced<Result<string, Error>>)
    ensures r.calls == [Spawn(StatusInvocation(p))]
    ensures var out := spawn(StatusInvocation(p));
            && (r.result.Ok? <==> out.Completed? && out.output.success)
            && (r.result.Ok? ==> r.result.value == out.output.stdout)
            && (out.SpawnError? ==> r.result == Err(SpawnFailure(out.reason)))
            && (out.Completed? && !out.output.success ==>
                  r.result.Err? && Contains(Message(r.result.error), out.output.stderr))
  {
    var inv := StatusInvocation(p);
    match spawn(inv)
    case SpawnError(reason) => Traced([Spawn(inv)], Err(SpawnFailure(reason)))
    case Completed(out) =>
      if out.success then Traced([Spawn(inv)], Ok(out.stdout))
      else
        StatusFailureMessage(out.stderr);
        Traced([Spawn(inv)], Err(StatusCheckFailed(out.stderr)))
  }

  /**
    Dispatches one command: exactly the six recognised strings spawn one
    process, every other string fails with `UnknownCommand` and spawns none.
   */
  function HandleCommand(h: CommandHandler, p: Platform, spawn: Spawner, command: string): (r: Traced<Result<string, Error>>)
    ensures command !in RecognisedCommands ==> r == Traced([], Err(UnknownCommand(command)))
    ensures command in RecognisedCommands ==>
              var inv := InvocationFor(h, p, Route(command).value);
              && r.calls == [Spawn(inv)]
              && (r.result.Ok? <==> spawn(inv).Completed? && spawn(inv).output.success)
              && (r.result.Ok? ==> r.result.value == spawn(inv).output.stdout)
  {
    match Route(command)
    case None => Traced([], Err(UnknownCommand(command)))
    case Some(RunScript(code)) => RunScriptFor(h, p, spawn, code)
    case Some(CheckStatus) => CheckStatusWith(p, spawn)
  }

  /**
    Whether the script for a code is present among the existing paths
    `files`: the check looks at exactly the path the script run would execute.
   */
  function IsScriptExists(h: CommandHandler, p: Platform, files: set<string>, code: string): (b: bool)
    ensures var args := ScriptInvocation(h, p, code).args;
            |args| == 2 && (b <==> args[1] in files)
  {
    ScriptPath(h, p, code) in files
  }

  /** Distinct codes run distinct script files. */
  lemma ScriptPathInjective(h: CommandHandler, p: Platform, c1: string, c2: string)
    requires ScriptPath(h, p, c1) == ScriptPath(h, p, c2)
    ensures c1 == c2
  {
    var pre := h.scriptDirectory + Separator(p);
    var ext := Extension(p);
    var s1 := ScriptPath(h, p, c1);
    assert s1 == pre + (c1 + ext);
    assert ScriptPath(h, p, c2) == pre + (c2 + ext);
    assert |c1| == |c2|;
    assert c1 == s1[|pre|..|pre| + |c1|];
    assert c2 == s1[|pre|..|pre| + |c2|];
  }
}

=== FILE: lower_hex.dfy ===
/**
  Lower-case hexadecimal text, as `format!("{:x}", digest)` renders a
  byte array: two digits per byte, high nibble first, digits `0-9a-f`.
  `Decode` is its inverse and accepts nothing else.
 */
module LowerHex {
  import opened Results
  import opened Effects

  predicate IsLowerHexDigit(c: char) {
    '0' <= c <= '9' || 'a' <= c <= 'f'
  }

  predicate IsLowerHex(s: string) {
    forall i :: 0 <= i < |s| ==> IsLowerHexDigit(s[i])
  }

  function DigitValue(c: char): (n: int)
    requires IsLowerHexDigit(c)
    ensures 0 <= n < 16
  {
    if c <= '9' then c as int - '0' as int else c as int - 'a' as int + 10
  }

  function DigitChar(n: int): (c: char)
    requires 0 <= n < 16
    ensures IsLowerHexDigit(c)
    ensures DigitValue(c) == n
  {
    if n < 10 then ('0' as int + n) as char else ('a' as int + n - 10) as char
  }

  function EncodeByte(b: byte): string {
    [DigitChar(b / 16), DigitChar(b % 16)]
  }

  /** Two lower-case digits per byte, so twice as many characters as bytes. */
  function Encode(bs: Bytes): (s: string)
    ensures |s| == 2 * |bs|
    ensures IsLowerHex(s)
  {
    if |bs| == 0 then "" else EncodeByte(bs[0]) + Encode(bs[1..])
  }

  /** Reads pairs of lower-case digits; anything else (odd length, other characters) is `None`. */
  function Decode(s: string): Option<Bytes>
    decreases |s|
  {
    if |s| == 0 then Some([])
    else if |s| == 1 || !IsLowerHexDigit(s[0]) || !IsLowerHexDigit(s[1]) then None
    else
      match Decode(s[2..])
      case None => None
      case Some(rest) => Some([DigitValue(s[0]) * 16 + DigitValue(s[1])] + rest)
  }

  lemma {:induction false} DecodeEncode(bs: Bytes)
    ensures Decode(Encode(bs)) == Some(bs)
    decreases |bs|
  {
    if |bs| > 0 {
      var s := Encode(bs);
      assert s == EncodeByte(bs[0]) + Encode(bs[1..]);
      assert s[2..] == Encode(bs[1..]);
      DecodeEncode(bs[1..]);
      assert DigitValue(s[0]) * 16 + DigitValue(s[1]) == bs[0];
      assert [bs[0]] + bs[1..] == bs;
    }
  }

  lemma {:induction false} EncodeDecode(s: string, bs: Bytes)
    requires Decode(s) == Some(bs)
    ensures Encode(bs) == s
    decreases |s|
  {
    if |s| > 0 {
      var rest := Decode(s[2..]).value;
      EncodeDecode(s[2..], rest);
      assert bs == [DigitValue(s[0]) * 16 + DigitValue(s[1])] + rest;
      assert bs[1..] == rest;
      var b := bs[0];
      assert b / 16 == DigitValue(s[0]) && b % 16 == DigitValue(s[1]);
      assert DigitChar(DigitValue(s[0])) == s[0] by { DigitRoundTrip(s[0]); }
      assert DigitChar(DigitValue(s[1])) == s[1] by { DigitRoundTrip(s[1]); }
      assert s == s[..2] + s[2..];
    }
  }

  lemma DigitRoundTrip(c: char)
    requires IsLowerHexDigit(c)
    ensures DigitChar(DigitValue(c)) == c
  {
  }

  /** A string is the encoding of `bs` exactly when it decodes to `bs`. */
  lemma EncodingIff(s: string, bs: Bytes)
    ensures s == Encode(bs) <==> Decode(s) == Some(bs)
  {
    if s == Encode(bs) {
      DecodeEncode(bs);
    }
    if Decode(s) == Some(bs) {
      EncodeDecode(s, bs);
    }
  }

  /** Distinct byte sequences have distinct encodings. */
  lemma EncodeInjective(a: Bytes, b: Bytes)
    requires Encode(a) == Encode(b)
    ensures a == b
  {
    DecodeEncode(a);
    DecodeEncode(b);
  }
}

=== FILE: monitor_repl.dfy ===
/**
  The file monitor's interactive loop: each input line is split into
  whitespace-separated words, matched against the command table with exact
  arity, and executed against the monitor. Only `quit` stops the loop;
  failures are reported and the loop goes on.
 */
module MonitorRepl {
  import opened Results
  import FileMonitor

  // ---------------------------------------------------------------------
  // Splitting on whitespace

  /** Unicode White_Space, the set `char::is_whitespace` tests. */
  predicate IsWhitespace(c: char) {
    || ('\U{0009}' <= c <= '\U{000D}')
    || c == '\U{0020}'
    || c == '\U{0085}'
    || c == '\U{00A0}'
    || c == '\U{1680}'
    || ('\U{2000}' <= c <= '\U{200A}')
    || c == '\U{2028}'
    || c == '\U{2029}'
    || c == '\U{202F}'
    || c == '\U{205F}'
    || c == '\U{3000}'
  }

  predicate IsWord(w: string) {
    |w| > 0 && forall i :: 0 <= i < |w| ==> !IsWhitespace(w[i])
  }

  predicate AllWhitespace(s: string) {
    forall i :: 0 <= i < |s| ==> IsWhitespace(s[i])
  }

  /** The length of the longest whitespace-free prefix. */
  function WordLength(s: string): (n: nat)
    ensures n <= |s|
    ensures forall i :: 0 <= i < n ==> !IsWhitespace(s[i])
    ensures n < |s| ==> IsWhitespace(s[n])
    decreases |s|
  {
    if |s| == 0 || IsWhitespace(s[0]) then 0 else 1 + WordLength(s[1..])
  }

  /** The maximal whitespace-free runs of `s`, in order. */
  function Words(s: string): (ws: seq<string>)
    ensures forall i :: 0 <= i < |ws| ==> IsWord(ws[i])
    decreases |s|
  {
    if |s| == 0 then []
    else if IsWhitespace(s[0]) then Words(s[1..])
    else
      var n := WordLength(s);
      [s[..n]] + Words(s[n..])
  }

  /**
    Words laid out with arbitrary whitespace: `pads[0] + ws[0] + pads[1] + ... + ws[k-1] + pads[k]`.
   */
  function Spaced(ws: seq<string>, pads: seq<string>): string
    requires |pads| == |ws| + 1
    decreases |ws|
  {
    if |ws| == 0 then pads[0] else pads[0] + ws[0] + Spaced(ws[1..], pads[1..])
  }

  lemma {:induction false} WordsSkipWhitespace(pad: string, s: string)
    requires AllWhitespace(pad)
    ensures Words(pad + s) == Words(s)
    decreases |pad|
  {
    if |pad| > 0 {
      assert (pad + s)[1..] == pad[1..] + s;
      WordsSkipWhitespace(pad[1..], s);
    } else {
      assert pad + s == s;
    }
  }

  lemma {:induction false} WordLengthOfWord(w: string, rest: string)
    requires IsWord(w)
    requires |rest| == 0 || IsWhitespace(rest[0])
    ensures WordLength(w + rest) == |w|
    decreases |w|
  {
    if |w| > 1 {
      assert (w + rest)[1..] == w[1..] + rest;
      WordLengthOfWord(w[1..], rest);
    } else {
      assert (w + rest)[1..] == rest;
    }
  }

  /**
    Leading, trailing and repeated whitespace do not matter: words laid
    out with any whitespace (at least one character between two words)
    split back into exactly those words.
   */
  lemma {:induction false} WordsOfSpaced(ws: seq<string>, pads: seq<string>)
    requires |pads| == |ws| + 1
    requires forall i :: 0 <= i < |ws| ==> IsWord(ws[i])
    requires forall i :: 0 <= i < |pads| ==> AllWhitespace(pads[i])
    requires forall i :: 0 < i < |ws| ==> |pads[i]| > 0
    ensures Words(Spaced(ws, pads)) == ws
    decreases |ws|
  {
    if |ws| == 0 {
      WordsSkipWhitespace(pads[0], "");
      assert pads[0] + "" == pads[0];
    } else {
      var w := ws[0];
      var rest := Spaced(ws[1..], pads[1..]);
      assert |rest| == 0 || IsWhitespace(rest[0]) by {
        if |ws| > 1 {
          assert rest == pads[1] + (ws[1] + Spaced(ws[2..], pads[2..]));
          assert rest[0] == pads[1][0];
        } else {
          assert rest == pads[1];
        }
      }
      assert Spaced(ws, pads) == pads[0] + (w + rest);
      WordsSkipWhitespace(pads[0], w + rest);
      WordLengthOfWord(w, rest);
      assert (w + rest)[..|w|] == w;
      assert (w + rest)[|w|..] == rest;
      WordsOfSpaced(ws[1..], pads[1..]);
      assert Words(w + rest) == [w] + ws[1..];
    }
  }

  // ---------------------------------------------------------------------
  // The command table

  datatype ReplCommand =
    | Help
    | Update(path: string)
    | Substitute(oldPath: string, newPath: string)
    | AddSubstitution(original: string, substitute: string)
    | RemoveSubstitution(original: string)
    | PauseMonitoring
    | ResumeMonitoring
    | ShowStats
    | ShowHistory
    | Quit
    | Unknown

  /**
    Matches the words of a line against the table; a wrong word count is
    `Unknown`. A recognised line is exactly its command's spelling.
   */
  function Parse(ws: seq<string>): (c: ReplCommand)
    ensures !c.Unknown? ==> Render(c) == ws
    ensures c == Quit <==> ws == ["quit"]
  {
    if ws == ["help"] then Help
    else if |ws| == 2 && ws[0] == "update" then Update(ws[1])
    else if |ws| == 3 && ws[0] == "substitute" then Substitute(ws[1], ws[2])
    else if |ws| == 3 && ws[0] == "add_substitution" then AddSubstitution(ws[1], ws[2])
    else if |ws| == 2 && ws[0] == "remove_substitution" then RemoveSubstitution(ws[1])
    else if ws == ["pause"] then PauseMonitoring
    else if ws == ["resume"] then ResumeMonitoring
    else if ws == ["stats"] then ShowStats
    else if ws == ["history"] then ShowHistory
    else if ws == ["quit"] then Quit
    else Unknown
  }

  /** The words that spell a command. */
  function Render(c: ReplCommand): seq<string>
    requires !c.Unknown?
  {
    match c
    case Help => ["help"]
    case Update(p) => ["update", p]
    case Substitute(a, b) => ["substitute", a, b]
    case AddSubstitution(a, b) => ["add_substitution", a, b]
    case RemoveSubstitution(a) => ["remove_substitution", a]
    case PauseMonitoring => ["pause"]
    case ResumeMonitoring => ["resume"]
    case ShowStats => ["stats"]
    case ShowHistory => ["history"]
    case Quit => ["quit"]
  }

  /** Every command is recognised from its own spelling. */
  lemma ParseRender(c: ReplCommand)
    requires !c.Unknown?
    ensures Parse(Render(c)) == c
  {
  }

  // ---------------------------------------------------------------------
  // Executing a command

  const RecentCount: nat := 10

  /** `s` back to front. */
  function Reverse<T>(s: seq<T>): seq<T>
    decreases |s|
  {
    if |s| == 0 then [] else Reverse(s[1..]) + [s[0]]
  }

  lemma {:induction false} ReverseIndex<T>(s: seq<T>, i: nat)
    requires i < |s|
    ensures |Reverse(s)| == |s| && Reverse(s)[i] == s[|s| - 1 - i]
    decreases |s|
  {
    ReverseLength(s[1..]);
    if i < |s| - 1 {
      ReverseIndex(s[1..], i);
    }
  }

  lemma {:induction false} ReverseLength<T>(s: seq<T>)
    ensures |Reverse(s)| == |s|
    decreases |s|
  {
    if |s| > 0 {
      ReverseLength(s[1..]);
    }
  }

  /** The most recent entries, newest first, at most ten. */
  function Recent(h: seq<FileMonitor.Entry>): (r: seq<FileMonitor.Entry>)
    ensures |r| == if |h| < RecentCount then |h| else RecentCount
    ensures forall i :: 0 <= i < |r| ==> r[i] == h[|h| - 1 - i]
  {
    var n := if |h| < RecentCount then |h| else RecentCount;
    seq(n, i requires 0 <= i < n => h[|h| - 1 - i])
  }

  /** The history shown is the newest window of the history, reversed. */
  lemma RecentIsReversedWindow(h: seq<FileMonitor.Entry>)
    ensures Recent(h) == Reverse(FileMonitor.Last(h, RecentCount))
  {
    var w := FileMonitor.Last(h, RecentCount);
    ReverseLength(w);
    forall i | 0 <= i < |w|
      ensures Recent(h)[i] == Reverse(w)[i]
    {
      ReverseIndex(w, i);
    }
  }

  /** Right after an event is recorded, it is the first entry shown. */
  lemma RecordedEventShownFirst(h: seq<FileMonitor.Entry>, entry: FileMonitor.Entry)
    ensures |Recent(FileMonitor.UpdateHistory(h, entry))| > 0
    ensures Recent(FileMonitor.UpdateHistory(h, entry))[0] == entry
  {
  }

  /** What a command prints. */
  datatype Shown =
    | Nothing
    | HelpText
    | Failed(error: FileMonitor.MonitorError)
    | StatsTable(stats: map<FileMonitor.FileEvent, nat>)
    | RecentHistory(entries: seq<FileMonitor.Entry>)
    | UnknownHint

  datatype Reply = Reply(keepGoing: bool, monitor: FileMonitor.Monitor, shown: Shown)

  /** Applies a monitor operation; a failure is only reported. */
  function Apply(m: FileMonitor.Monitor, r: Result<FileMonitor.Monitor, FileMonitor.MonitorError>): Reply {
    match r
    case Ok(m') => Reply(true, m', Nothing)
    case Err(e) => Reply(true, m, Failed(e))
  }

  /** Applies a path update; a failure is only reported, with whatever the update left behind. */
  function ApplyUpdate(u: FileMonitor.Updated): Reply {
    match u.result
    case Ok(_) => Reply(true, u.monitor, Nothing)
    case Err(e) => Reply(true, u.monitor, Failed(e))
  }

  /**
    Runs one command: only `quit` stops; help, statistics and history only
    show; the other commands run their monitor operation with the parsed
    words; only a path update can fail, and then at most the watcher changed.
   */
  function Execute(m: FileMonitor.Monitor, c: ReplCommand, env: FileMonitor.WatchEnv): (r: Reply)
    ensures !r.keepGoing <==> c == Quit
    ensures c.Unknown? ==> r == Reply(true, m, UnknownHint)
    ensures c.Help? || c.ShowStats? || c.ShowHistory? || c.Quit? ==> r.monitor == m
    ensures c.ShowStats? ==> r.shown == StatsTable(m.stats)
    ensures c.ShowHistory? ==> r.shown == RecentHistory(Recent(m.history))
    ensures r.shown.Failed? ==> c.Update? && r.monitor == m.(watcher := r.monitor.watcher)
    ensures c.Update? ==>
              var u := FileMonitor.UpdatePath(m, c.path, env);
              && r.monitor == u.monitor
              && (r.shown.Failed? <==> u.result.Err?)
              && (u.result.Ok? ==> r.shown == Nothing)
    ensures c.Substitute? ==>
              r == Reply(true, if c.oldPath == m.currentPath then m.(substitute := Some(c.newPath)) else m, Nothing)
    ensures c.AddSubstitution? ==>
              && r.keepGoing && r.shown == Nothing
              && r.monitor == m.(substitutions := r.monitor.substitutions)
              && FileMonitor.GetSubstitutedPath(r.monitor, c.original) == c.substitute
              && (forall q :: q != c.original ==> FileMonitor.GetSubstitutedPath(r.monitor, q) == FileMonitor.GetSubstitutedPath(m, q))
    ensures c.RemoveSubstitution? ==>
              && r.keepGoing && r.shown == Nothing
              && r.monitor == m.(substitutions := r.monitor.substitutions)
              && FileMonitor.GetSubstitutedPath(r.monitor, c.original) == c.original
              && (forall q :: q != c.original ==> FileMonitor.GetSubstitutedPath(r.monitor, q) == FileMonitor.GetSubstitutedPath(m, q))
    ensures c.PauseMonitoring? ==> r == Reply(true, m.(paused := true), Nothing)
    ensures c.ResumeMonitoring? ==> r == Reply(true, m.(paused := false), Nothing)
  {
    match c
    case Help => Reply(true, m, HelpText)
    case Update(p) => ApplyUpdate(FileMonitor.UpdatePath(m, p, env))
    case Substitute(a, b) => Apply(m, FileMonitor.SubstitutePath(m, a, b))
    case AddSubstitution(a, b) => Apply(m, FileMonitor.AddPathSubstitution(m, a, b))
    case RemoveSubstitution(a) => Apply(m, FileMonitor.RemovePathSubstitution(m, a))
    case PauseMonitoring => Apply(m, FileMonitor.Pause(m))
    case ResumeMonitoring => Apply(m, FileMonitor.Resume(m))
    case ShowStats => Reply(true, m, StatsTable(m.stats))
    case ShowHistory => Reply(true, m, RecentHistory(Recent(m.history)))
    case Quit => Reply(false, m, Nothing)
    case Unknown => Reply(true, m, UnknownHint)
  }

  /**
    One input line: the loop stops exactly when the line's only word is
    `quit`; an unrecognised line changes nothing; a failing command changes
    at most the watcher.
   */
  function HandleLine(m: FileMonitor.Monitor, line: string, env: FileMonitor.WatchEnv): (r: Reply)
    ensures !r.keepGoing <==> Words(line) == ["quit"]
    ensures Parse(Words(line)).Unknown? ==> r == Reply(true, m, UnknownHint)
    ensures r.shown.Failed? ==> r.monitor == m.(watcher := r.monitor.watcher)
  {
    Execute(m, Parse(Words(line)), env)
  }

  /** After a `pause` line, no watcher event changes the monitor until it is resumed. */
  lemma PauseLineStopsRecording(m: FileMonitor.Monitor, line: string, env: FileMonitor.WatchEnv, ws: seq<FileMonitor.Observed>)
    requires Words(line) == ["pause"]
    ensures HandleLine(m, line, env).monitor == m.(paused := true)
    ensures FileMonitor.Replay(HandleLine(m, line, env).monitor, ws) == HandleLine(m, line, env).monitor
  {
    assert Parse(Words(line)) == PauseMonitoring;
    FileMonitor.PausedReplayChangesNothing(m.(paused := true), ws);
  }

  /** A `resume` line clears the pause and changes nothing else. */
  lemma ResumeLineRestores(m: FileMonitor.Monitor, line: string, env: FileMonitor.WatchEnv)
    requires Words(line) == ["resume"]
    ensures HandleLine(m, line, env).monitor == m.(paused := false)
    ensures HandleLine(m, line, env).keepGoing
  {
    assert Parse(Words(line)) == ResumeMonitoring;
  }

  /** A line read from standard input, or the error reading it. */
  datatype Input = Line(text: string) | ReadError(reason: string)

  predicate IsQuit(x: Input) {
    x.Line? && Words(x.text) == ["quit"]
  }

  datatype Session = Session(monitor: FileMonitor.Monitor, consumed: nat)

  /**
    Reads lines until `quit` or the end of input; a read error is skipped.
    The operating system may answer differently as the session goes on, so
    the `i`-th line of text (read errors not counted) sees `envs(i)`.
   */
  function RunLines(m: FileMonitor.Monitor, inputs: seq<Input>, envs: nat -> FileMonitor.WatchEnv): (r: Session)
    ensures r.consumed <= |inputs|
    ensures forall i :: 0 <= i < r.consumed - 1 ==> !IsQuit(inputs[i])
    ensures r.consumed == |inputs| || (r.consumed > 0 && IsQuit(inputs[r.consumed - 1]))
    ensures (forall i :: 0 <= i < |inputs| ==> !IsQuit(inputs[i])) ==> r.consumed == |inputs|
    decreases |inputs|
  {
    if |inputs| == 0 then Session(m, 0)
    else
      match inputs[0]
      case ReadError(_) =>
        var rest := RunLines(m, inputs[1..], envs);
        Session(rest.monitor, rest.consumed + 1)
      case Line(text) =>
        var reply := HandleLine(m, text, envs(0));
        if !reply.keepGoing then Session(reply.monitor, 1)
        else
          var rest := RunLines(reply.monitor, inputs[1..], Later(envs));
          Session(rest.monitor, rest.consumed + 1)
  }

  /** The environments seen from the next line of text on. */
  function Later(envs: nat -> FileMonitor.WatchEnv): nat -> FileMonitor.WatchEnv {
    (n: nat) => envs(n + 1)
  }

  /** The input with its read errors removed. */
  function LinesOnly(inputs: seq<Input>): (r: seq<Input>)
    ensures |r| <= |inputs|
    ensures forall x <- r :: x.Line?
    ensures forall x <- r :: x in inputs
  {
    if |inputs| == 0 then []
    else if inputs[0].ReadError? then LinesOnly(inputs[1..])
    else [inputs[0]] + LinesOnly(inputs[1..])
  }

  /** A read error leaves the monitor as the rest of the input would. */
  lemma ReadErrorSkipped(m: FileMonitor.Monitor, reason: string, rest: seq<Input>, envs: nat -> FileMonitor.WatchEnv)
    ensures RunLines(m, [ReadError(reason)] + rest, envs).monitor == RunLines(m, rest, envs).monitor
  {
    assert ([ReadError(reason)] + rest)[1..] == rest;
  }

  /** Read errors, wherever they occur, make no difference to the final monitor. */
  lemma {:induction false} ReadErrorsIgnored(m: FileMonitor.Monitor, inputs: seq<Input>, envs: nat -> FileMonitor.WatchEnv)
    ensures RunLines(m, inputs, envs).monitor == RunLines(m, LinesOnly(inputs), envs).monitor
    decreases |inputs|
  {
    if |inputs| > 0 {
      var lines := LinesOnly(inputs);
      match inputs[0]
      case ReadError(_) =>
        ReadErrorsIgnored(m, inputs[1..], envs);
      case Line(text) =>
        assert lines == [inputs[0]] + LinesOnly(inputs[1..]);
        assert lines[0] == inputs[0] && lines[1..] == LinesOnly(inputs[1..]);
        var reply := HandleLine(m, text, envs(0));
        if reply.keepGoing {
          ReadErrorsIgnored(reply.monitor, inputs[1..], Later(envs));
        }
    }
  }

  /** The lines after the first `quit` are never read: the monitor is what the consumed prefix leaves. */
  lemma {:induction false} NothingAfterQuit(m: FileMonitor.Monitor, inputs: seq<Input>, envs: nat -> FileMonitor.WatchEnv)
    ensures RunLines(m, inputs[..RunLines(m, inputs, envs).consumed], envs) == RunLines(m, inputs, envs)
    decreases |inputs|
  {
    var r := RunLines(m, inputs, envs);
    if |inputs| > 0 {
      var prefix := inputs[..r.consumed];
      assert prefix[0] == inputs[0];
      match inputs[0]
      case ReadError(_) =>
        var rest := RunLines(m, inputs[1..], envs);
        NothingAfterQuit(m, inputs[1..], envs);
        assert prefix[1..] == inputs[1..][..rest.consumed];
      case Line(text) =>
        var reply := HandleLine(m, text, envs(0));
        if reply.keepGoing {
          var rest := RunLines(reply.monitor, inputs[1..], Later(envs));
          NothingAfterQuit(reply.monitor, inputs[1..], Later(envs));
          assert prefix[1..] == inputs[1..][..rest.consumed];
        }
    }
  }
}

=== FILE: results.dfy ===
/**
  Wrappers shared by both programs: `Option` for the source's
  `Option<T>` and `Result` for its `anyhow::Result<T>`.
 */
module Results {

  datatype Option<+T> = None | Some(value: T)

  /** A computation that either produced a value or failed with an error. */
  datatype Result<+T, +E> = Ok(value: T) | Err(error: E)
}

=== FILE: security.dfy ===
/**
  The authentication gate. It reads 1024 bytes from the key, hashes what
  it got with SHA-256 (FIPS 180-4), renders the digest as lower-case hex
  and compares the text with the expected hash. SHA-256 itself is a
  parameter: any function to 32-byte digests.
 */
module Security {
  import opened Results
  import opened Errors
  import opened Effects
  import opened LowerHex
  import opened UsbKeys

  /** The number of bytes requested from the key. */
  const KeyReadSize: nat := 1024

  const DigestLength: nat := 32

  type Digest = d: Bytes | |d| == DigestLength witness seq(32, _ => 0)

  /** SHA-256 as an oracle. */
  type Sha256 = Bytes -> Digest

  /** Holds only the expected hash; verification never changes it. */
  datatype SecurityManager = SecurityManager(expectedKeyHash: string)

  /** The digest of `data` in lower-case hex: 64 characters that decode back to the digest. */
  function HashData(sha: Sha256, data: Bytes): (h: string)
    ensures |h| == 2 * DigestLength
    ensures IsLowerHex(h)
    ensures Decode(h) == Some(sha(data))
  {
    DecodeEncode(sha(data));
    Encode(sha(data))
  }

  /** Requests exactly 1024 bytes; a read error propagates, otherwise compares the hex digest of what was read. */
  function VerifyKey(m: SecurityManager, sha: Sha256, k: UsbKey): (r: Traced<Result<bool, Error>>)
    ensures r.calls == [Read(KeyReadSize)]
    ensures k.device.onRead(KeyReadSize).Err? ==> r.result == Err(k.device.onRead(KeyReadSize).error)
    ensures k.device.onRead(KeyReadSize).Ok? ==>
              r.result.Ok? && (r.result.value <==> Decode(m.expectedKeyHash) == Some(sha(k.device.onRead(KeyReadSize).value)))
  {
    var read := ReadData(k, KeyReadSize);
    match read.result
    case Err(e) => Traced(read.calls, Err(e))
    case Ok(keyData) =>
      var keyHash := HashData(sha, keyData);
      EncodingIff(m.expectedKeyHash, sha(keyData));
      Traced(read.calls, Ok(keyHash == m.expectedKeyHash))
  }

  /** The gate: succeeds only on a match; a mismatch fails with an error that says nothing more. */
  function AuthenticateKey(m: SecurityManager, sha: Sha256, k: UsbKey): (r: Traced<Result<(), Error>>)
    ensures r.calls == [Read(KeyReadSize)]
    ensures r.result.Ok? <==> VerifyKey(m, sha, k).result == Ok(true)
    ensures VerifyKey(m, sha, k).result == Ok(false) ==> r.result == Err(KeyAuthenticationFailed)
    ensures k.device.onRead(KeyReadSize).Err? ==> r.result == Err(k.device.onRead(KeyReadSize).error)
  {
    var v := VerifyKey(m, sha, k);
    match v.result
    case Err(e) => Traced(v.calls, Err(e))
    case Ok(matched) => Traced(v.calls, if matched then Ok(()) else Err(KeyAuthenticationFailed))
  }

  /** Authentication succeeds exactly when the key yields data whose hex digest is the expected text. */
  lemma AuthenticationIff(m: SecurityManager, sha: Sha256, k: UsbKey)
    ensures AuthenticateKey(m, sha, k).result.Ok?
            <==> k.device.onRead(KeyReadSize).Ok?
                 && m.expectedKeyHash == HashData(sha, k.device.onRead(KeyReadSize).value)
  {
  }

  /** An expected hash with any character outside `0-9a-f` (upper-case hex included) rejects every key. */
  lemma NonLowerHexNeverMatches(m: SecurityManager, sha: Sha256, k: UsbKey, i: nat)
    requires i < |m.expectedKeyHash| && !IsLowerHexDigit(m.expectedKeyHash[i])
    ensures AuthenticateKey(m, sha, k).result.Err?
  {
  }

  /** An expected hash of any length other than 64 rejects every key. */
  lemma WrongLengthNeverMatches(m: SecurityManager, sha: Sha256, k: UsbKey)
    requires |m.expectedKeyHash| != 2 * DigestLength
    ensures AuthenticateKey(m, sha, k).result.Err?
  {
  }
}

=== FILE: text.dfy ===
/** Substring containment, used to state what an error or log message mentions. */
module Text {

  /** `sub` occurs in `s` starting at index `i`. */
  predicate OccursAt(s: string, sub: string, i: int) {
    0 <= i && i + |sub| <= |s| && s[i..i + |sub|] == sub
  }

  /** `sub` occurs somewhere in `s`. */
  ghost predicate Contains(s: string, sub: string) {
    exists i :: OccursAt(s, sub, i)
  }

  /** Every part of a concatenation is contained in it, at the offset of its prefix. */
  lemma PartOfConcatenation(pre: string, sub: string, post: string)
    ensures OccursAt(pre + sub + post, sub, |pre|)
    ensures Contains(pre + sub + post, sub)
  {
    assert OccursAt(pre + sub + post, sub, |pre|);
  }
}

=== FILE: usb_key.dfy ===
/**
  A USB key: a device plus the key id it must report. The key adds an
  identity check (`Initialize`) and otherwise forwards every operation to
  the device it wraps. `keyId` is fixed at construction: no operation here
  returns a new key.
 */
module UsbKeys {
  import opened Results
  import opened Errors
  import opened Effects
  import opened DeviceOperator

  datatype UsbKey = UsbKey(device: Device, keyId: string)

  /**
    The acceptance rule in one place: the device connects, reports a
    descriptor, the descriptor says `USB` and carries the configured id.
   */
  predicate IsExpectedKey(k: UsbKey) {
    && k.device.onConnect.Ok?
    && k.device.onGetInfo.Ok?
    && k.device.onGetInfo.value.deviceType == USB
    && k.device.onGetInfo.value.id == k.keyId
  }

  /**
    Connects, then fetches the descriptor, then checks its type, then its
    id; each step has its own failure exit, and a failure never disconnects.
   */
  function Initialize(k: UsbKey): (r: Traced<Result<(), Error>>)
    ensures r.result.Ok? <==> IsExpectedKey(k)
    ensures r.calls == if k.device.onConnect.Ok? then [Connect, GetInfo] else [Connect]
    ensures Disconnect !in r.calls
    ensures k.device.onConnect.Err? ==> r.result == Err(k.device.onConnect.error)
    ensures k.device.onConnect.Ok? && k.device.onGetInfo.Err? ==> r.result == Err(k.device.onGetInfo.error)
    ensures k.device.onConnect.Ok? && k.device.onGetInfo.Ok? && k.device.onGetInfo.value.deviceType != USB
            ==> r.result == Err(NotUsbDevice)
    ensures k.device.onConnect.Ok? && k.device.onGetInfo.Ok? && k.device.onGetInfo.value.deviceType == USB
            && k.device.onGetInfo.value.id != k.keyId
            ==> r.result == Err(UnexpectedKey)
  {
    match k.device.onConnect
    case Err(e) => Traced([Connect], Err(e))
    case Ok(_) =>
      var calls := [Connect, GetInfo];
      match k.device.onGetInfo
      case Err(e) => Traced(calls, Err(e))
      case Ok(info) =>
        if info.deviceType != USB then Traced(calls, Err(NotUsbDevice))
        else if info.id != k.keyId then Traced(calls, Err(UnexpectedKey))
        else Traced(calls, Ok(()))
  }

  function ReadData(k: UsbKey, size: nat): (r: Traced<Result<Bytes, Error>>)
    ensures r.calls == [Read(size)] && r.result == k.device.onRead(size)
  {
    Traced([Read(size)], k.device.onRead(size))
  }

  function WriteData(k: UsbKey, data: Bytes): (r: Traced<Result<(), Error>>)
    ensures r.calls == [Write(data)] && r.result == k.device.onWrite(data)
  {
    Traced([Write(data)], k.device.onWrite(data))
  }

  /** The `n`-th wait for a command on this key. */
  function WaitForKeyCommand(k: UsbKey, timeout: Duration, n: nat): (r: Traced<Result<string, Error>>)
    ensures r.calls == [WaitForCommand(timeout)] && r.result == k.device.onWaitForCommand(timeout, n)
  {
    Traced([WaitForCommand(timeout)], k.device.onWaitForCommand(timeout, n))
  }

  function ConnectKey(k: UsbKey): Traced<Result<(), Error>> {
    Traced([Connect], k.device.onConnect)
  }

  function DisconnectKey(k: UsbKey): Traced<Result<(), Error>> {
    Traced([Disconnect], k.device.onDisconnect)
  }

  /** The key seen through the device interface. */
  function AsDevice(k: UsbKey): Device {
    Device(
      ConnectKey(k).result,
      DisconnectKey(k).result,
      (size: nat) => ReadData(k, size).result,
      (data: Bytes) => WriteData(k, data).result,
      k.device.onGetInfo,
      (timeout: Duration, n: nat) => WaitForKeyCommand(k, timeout, n).result)
  }

  /** Through the device interface, a key answers every operation exactly as the device it wraps. */
  lemma KeyForwardsToDevice(k: UsbKey, size: nat, data: Bytes, timeout: Duration, n: nat)
    ensures AsDevice(k).onConnect == k.device.onConnect
    ensures AsDevice(k).onDisconnect == k.device.onDisconnect
    ensures AsDevice(k).onRead(size) == k.device.onRead(size)
    ensures AsDevice(k).onWrite(data) == k.device.onWrite(data)
    ensures AsDevice(k).onGetInfo == k.device.onGetInfo
    ensures AsDevice(k).onWaitForCommand(timeout, n) == k.device.onWaitForCommand(timeout, n)
  {
  }
}
